=== FILE: README.md ===
# lazydocker container and service reconciliation, in Dafny

This project models the reconciliation core of lazydocker's
`DockerCommand` (pkg/commands/docker.go). On every refresh the terminal
dashboard rebuilds its view of the container runtime in these steps:

- **Registry merge** (`GetContainers`). A fresh container listing is merged
  with the container objects already held. An object whose ID is already
  known is reused, so its monitoring flag, stats history and inspect details
  survive. Its observed fields are then overwritten from the listing's labels.
- **Service parsing** (`GetServices`). Inside a compose project, the compose
  tool's `name id` output lines become services.
- **Assignment** (`assignContainersToServices`). Each service gets the first
  container, in list order, that is not a one-off and carries its service
  label.
- **Standalone derivation** (`obtainStandaloneContainers`). This finds the
  containers that are not absorbed into a service row.
- **Display pipeline**. The display list is built in three stages:
  - the exited filter drops containers in state `exited`, unless exited
    containers are shown;
  - the ignore filter drops containers whose name contains an entry of the
    ignore list;
  - the sort orders by state rank (running 1, exited 2, created 3, any other
    state 0) and then by name.
- **Refresh** (`RefreshContainersAndServices`) composes all of the above. It
  is one atomic transition of a registry state.

Go shares `*Container` pointers between the held list, the display list and
the services. The model makes this sharing explicit:

- A `Heap` is a sequence of container objects, and a `Ref` indexes into it.
- Lists are sequences of `Ref`s.
- A service's container is an `Option<Ref>`.

Two behaviours of the code follow directly from this heap model:

- Only the previously held list is searched for an ID. If one listing holds
  two summaries with an ID that was already held, both entries are that one
  object, and the later summary's observations win. A new ID listed twice
  gets two fresh objects, each observed from its own summary.
- If the compose tool fails after the listing succeeded, both lists keep
  their old values. The reused objects, however, already carry the new
  observations.

Modules follow the structure of the code:

- `Model`: records, labels and the observation of one summary.
- `Registry`: the merge.
- `Services`: parsing, assignment and standalone derivation.
- `Display`: the filters and the sort.
- `Refresh`: the composition.
- `Scenarios`: consequences of the refresh contract.
- `GoStrings` and `Seqs`: the few parts of Go's `strings` package and of
  list filtering that the core relies on.
- `Wrappers`: `Option` and `Result`.

## What the code does not guarantee

- **No partition.** Assigned and standalone containers do not partition the
  container list:
  - assignment (line 214) accepts a service named `""`, while the standalone
    test (line 272) requires a non-empty service name. So the container a
    service named `""` is given is always standalone as well
    (`Scenarios.EmptyNameAssignedIsStandalone`);
  - only the first backing container of a service is assigned (lines
    214-216), yet every container that is not a one-off and whose non-empty
    label names some service is hidden (line 272). So any later backing
    container is neither assigned nor standalone
    (`Scenarios.SecondBackingIsNeither`).
- **No stable sort.** `sort.Slice` is not stable. The model promises only a
  permutation that no pair inverts by (rank, name).
  `Display.SortedPermutationsAgree` shows that all such permutations agree
  slot by slot on rank and name, so only the order among ties is open.
- **Legacy mode does not sort by name.** The comment above `sortedContainers`
  (lines 245-246) says the list is sorted by name when sorting by state is
  off. The code (lines 248 and 263) returns the list unchanged in legacy
  mode, and the model follows the code (`Display.SortedContainers`).

## Model

| member | source | states |
|---|---|---|
| Model.Observe | pkg/commands/docker.go:320-330 | The observed fields are set from the summary: the `name` label verbatim when present, else the first name with all leading `/` removed; the compose labels, or `""` when missing; one-off exactly when the one-off label is `"True"`. Identity and owned state are untouched. |
| Model.ObservedLabels | pkg/commands/docker.go:327-330 | Any observation reads the service, project and number labels, and the one-off marker, exactly as Go's map index does: a missing key reads as `""`. |
| Model.NewContainer | pkg/commands/docker.go:308-318 | A container built for a new ID carries that ID, is not monitored, and has no stats history and no details. |
| Registry.FirstHeld | pkg/commands/docker.go:300-305 | The search finds the first held object with the ID. It returns nothing exactly when no held object has that ID. |
| Registry.Place | pkg/commands/docker.go:297-332 | One loop iteration. It uses the first held object with the ID, else exactly one newly allocated object with empty owned state. It then records the summary's observations on that object. Every other object is unchanged, and no object's ID or owned state changes. |
| Registry.Merge | pkg/commands/docker.go:283-336 | The result has one entry per fetched summary, in fetched order, each with that summary's ID. The first held object with the ID is reused. New objects are fresh and never shared between entries. Every object keeps its ID and owned state. Each object carries the observations of its last entry. Objects no entry refers to are untouched. |
| Registry.MergeKeepsOwnedState | pkg/commands/docker.go:294-318 | A fetched ID that was already held maps to an old object, whose monitoring flag, history and details are unchanged. |
| Registry.MergeDistinctIds | pkg/commands/docker.go:296-333 | When the listing's IDs are distinct, entries are pairwise distinct objects, and each carries its own summary's observations. |
| GoStrings.TrimLeft | pkg/commands/docker.go:325 | `strings.TrimLeft` with a one-character cutset: the result is the suffix of the input after the maximal run of leading cutset characters. |
| GoStrings.LeftTrimmedUnique | pkg/commands/docker.go:325 | That characterisation has exactly one solution, so the trim is fully determined by it. |
| GoStrings.TrimLeftStripsAll | pkg/commands/docker.go:325 | Trimming is idempotent, and an extra leading `/` changes nothing: all leading slashes are stripped, not one. |
| GoStrings.Split | pkg/commands/docker.go:357 | `strings.Split` yields at least one piece. No piece contains the separator, and joining the pieces with it gives the input back. |
| GoStrings.SplitJoin | pkg/commands/docker.go:357 | Round trip: splitting a join of separator-free pieces returns the pieces. |
| GoStrings.SplitCountsSeparators | pkg/commands/docker.go:357-360 | A line splits into a single piece exactly when it has no space. So `arr[1]` exists exactly when the line contains a space. |
| Services.SplitFront | pkg/commands/docker.go:357-360 | The first two split fields of a line with a space are its text up to the first space and the text from there to the next space or the end. |
| Services.ParseServices | pkg/commands/docker.go:354-365 | The result has one service per line, in line order. Each service has no container, and its name and ID are the line's first two space-separated fields. |
| Services.FirstTwoFieldsOfFormatted | pkg/commands/docker.go:357-360 | The first two fields of a `name id` line without further spaces are exactly `name` and `id`. |
| Services.ParseFormatted | pkg/commands/docker.go:350-365 | Round trip: services whose names and IDs contain no space, printed in the tool's `name id` format, parse back to the same services. |
| Services.GetServices | pkg/commands/docker.go:339-368 | Outside a compose project there are no services, whatever the tool would say. Inside one, the result is an error exactly when the tool fails; otherwise it is one service per output line. |
| Services.FirstBacking | pkg/commands/docker.go:213-218 | The scan finds the first container that is not a one-off and carries the service's name. It finds nothing exactly when no container qualifies. |
| Services.AssignContainers | pkg/commands/docker.go:210-221 | Every service keeps its name and ID. Its container is nil exactly when no container backs it; otherwise it is the first container, in list order, that does. |
| Services.AssignedContainersBack | pkg/commands/docker.go:212-216 | An assigned container belongs to the list, is not a one-off, and carries the service's name. |
| Services.StandaloneContainers | pkg/commands/docker.go:266-280 | The result is an order-preserving subsequence of the containers. It keeps exactly the one-offs, the unlabelled containers and those whose label names no service, each with its original multiplicity. |
| Services.StandaloneAlwaysKeeps | pkg/commands/docker.go:270-277 | One-off and unlabelled containers are always kept. With no services the result is the whole list. |
| Services.HiddenContainersHaveBackedService | pkg/commands/docker.go:210-280 | A container that is not standalone has a service carrying its label, and that service is assigned some container. |
| Seqs.FilterKeepsExactly | pkg/commands/docker.go:228-233 | The append loop gives an order-preserving subsequence that holds each kept element as often as the input does, and nothing else. |
| Display.FilterOutExited | pkg/commands/docker.go:224-235 | The input itself when exited containers are shown. Otherwise, in order, exactly the containers whose state is not `"exited"`. |
| GoStrings.ContainsIffOccurs | pkg/commands/docker.go:240 | `strings.Contains` holds exactly when the needle occurs at some position. The empty needle occurs in every name. |
| Display.FilterOutIgnored | pkg/commands/docker.go:237-243 | In order, exactly the containers whose name contains no ignore entry. An empty ignore list keeps everything; an entry `""` drops everything. |
| Display.FiltersIdempotent | pkg/commands/docker.go:224-243 | A second pass of either filter removes nothing more. |
| Display.Rank | pkg/commands/docker.go:249-255 | The rank of a state, read from the `states` map: running 1, exited 2, created 3, and 0 for any other state, which is Go's value for a missing key. |
| Display.Before | pkg/commands/docker.go:254-261 | The less function passed to `sort.Slice`: the lower rank comes first, and within equal ranks the smaller name by Go's string `<`. |
| Seqs.Filter | pkg/commands/docker.go:228-233 | An order-preserving filter: the result is no longer than the input, every element passes the test, and the result is the input itself exactly when every element passes. |
| GoStrings.Index | pkg/commands/docker.go:240 | `strings.Index`, to which `strings.Contains` reduces: the first position where the needle occurs, or -1 exactly when it occurs nowhere. |
| Display.BeforeAsymmetric | pkg/commands/docker.go:254-261 | The less function never orders two containers both ways. |
| Display.NotBeforeTransitive | pkg/commands/docker.go:254-261 | "Not before" is transitive, so (rank, name) is a total preorder and a sorted order exists. |
| Display.TiesAreSameKey | pkg/commands/docker.go:257-260 | Neither of two containers comes before the other exactly when they have equal rank and equal name. |
| Display.SortByStateAndName | pkg/commands/docker.go:254-261 | The result is a permutation of the input in which no later container should come before an earlier one. |
| Display.SortedContainers | pkg/commands/docker.go:247-264 | Legacy mode returns the list unchanged. Otherwise the result is a permutation ordered by (rank, name), with ties left open. |
| Display.SortedStateOrder | pkg/commands/docker.go:249-260 | In a sorted list, unknown states come first, then running, exited and created containers. Equal ranks are in name order. |
| Display.SortedPermutationsAgree | pkg/commands/docker.go:254-261 | Any two sorted permutations of the same list have the same length and agree slot by slot on rank and name. The unstable sort leaves only the order among ties open. |
| GoStrings.LessIsLexicographic | pkg/commands/docker.go:258 | Go's string `<` is the lexicographic order: after the longest common prefix, the first string ends or has the smaller character. |
| GoStrings.LessTransitive | pkg/commands/docker.go:258 | String `<` is transitive. |
| GoStrings.LessTrichotomous | pkg/commands/docker.go:258 | Two different strings are ordered exactly one way. |
| Refresh.DisplayList | pkg/commands/docker.go:197-205 | The display list holds exactly the shown containers, each as often as in the list. A container is shown when it is standalone (unless all are shown), not exited (unless exited are shown) and not ignored. In legacy mode the list keeps the registry's order; otherwise it is sorted by (rank, name). |
| Refresh.ShownAfterReassignment | pkg/commands/docker.go:195-205 | Assigning containers renames no service, so the display list selects the same containers whether the standalone test sees the services before or after assignment. |
| Refresh.ServicesOutcome | pkg/commands/docker.go:184-193 | The services of a refresh are: those passed in, used as given; none outside a compose project; or the parsed tool output. There is an error exactly when none were passed in, the directory is a compose project and the tool fails. |
| Refresh.Conclude | pkg/commands/docker.go:195-207 | After the merge, a service error changes only the heap. Otherwise the held list becomes the merged list, services are reassigned, and the display list selects the shown containers. |
| Refresh.RefreshContainersAndServices | pkg/commands/docker.go:175-208 | The refresh fails exactly when the listing fails, or when the compose tool fails while no services were passed in inside a compose project. A failed listing leaves the state as it was. Any failure leaves both lists as they were. On success the held list is the merge, the services are the given or parsed ones with containers assigned, and the display list is the filtered and sorted selection. |
| Refresh.GivenServicesAreNotRefetched | pkg/commands/docker.go:186-187 | With services passed in, the compose tool's output has no influence on the refresh. |
| Refresh.RefreshPreservesIdentity | pkg/commands/docker.go:179-202 | Across a successful refresh, a container listed under a held ID is the same object, with its monitoring flag, history and details intact. |
| Scenarios.MergedContainersBack | pkg/commands/docker.go:320-332 | When the listing's IDs are distinct, a summary labelled with a service and not marked one-off yields a merged container that backs that service. |
| Scenarios.OwnContainerAssigned | pkg/commands/docker.go:210-221 | When container `k` alone carries service `k`'s distinct name, service `k` gets container `k`. With non-empty names, no such container is standalone. |
| Scenarios.NothingStandaloneShown | pkg/commands/docker.go:197-205 | When no container is standalone and not all containers are shown, the display list is empty. |
| Scenarios.EachServiceGetsItsContainer | pkg/commands/docker.go:175-208 | Consider a compose project listing one non-one-off container per service, in service order. A refresh from the tool's output gives every service its own container. |
| Scenarios.AbsorbedContainersAreNotShown | pkg/commands/docker.go:195-205 | In that project, with not all containers shown, the containers panel is empty: every container is absorbed into its service row. |
| Scenarios.OneOffIsStandaloneAndUnassigned | pkg/commands/docker.go:210-280 | A one-off container is always standalone and is never any service's container. |
| Scenarios.EmptyNameAssignedIsStandalone | pkg/commands/docker.go:210-280 | For any containers and services: the container assigned to a service named `""` is standalone, and such a service is assigned one whenever some container that is not a one-off has no service label. |
| Scenarios.SecondBackingIsNeither | pkg/commands/docker.go:210-280 | For any containers and services: a container that is not a one-off, whose non-empty label names some service, and that an earlier entry already backs, is assigned to no service and is not standalone. |

## Left out

- GoStrings.Less: Go compares strings byte by byte on their UTF-8 encoding, and `strings.Contains` matches bytes. The model compares and matches code points. The two agree on valid UTF-8, which container names and ignore entries are assumed to be; invalid byte sequences are not modelled.
- `NewDockerCommand` and `Close`: client construction, SSH tunnelling and process exit are I/O, with nothing to verify in list logic.
- `NewCommandObject`: its reflection-based struct merge belongs to a foreign library whose behaviour is not visible.
- `MonitorContainerStats` and `createClientStatMonitor`: goroutines, a ticker, context cancellation and streaming JSON decoding. The handoff of the monitoring flag is a data race that a sequential model cannot state faithfully. The model only shows that a refresh preserves the flag.
- CPU and memory percentage calculation: floating point, defined outside pkg/commands/docker.go. The stored samples are carried as opaque data.
- `UpdateContainerDetails`, `ViewAllLogs` and `DockerComposeConfig`: thin wrappers around runtime and shell calls.
- The two mutexes: each refresh is one atomic transition of the registry state.
- The runtime's `ContainerList` call and the shell's `RunCommandWithOutput`: their results, success or error, are inputs to the refresh.
- `utils.SplitLines` is not part of this model: the compose tool's output arrives already split into lines.
- The `Client`, `OSCommand`, `Log`, `Tr`, `Config` and `DockerCommand` back-references that each new container and service receives: they carry no state this core reads.
- Runtime panics are preconditions rather than modelled behaviour. Indexing `Names[0]` of a summary without names or a `name` label is excluded by `Model.Nameable`. Indexing `arr[1]` of an output line without a space is excluded by `Services.HasTwoFields`.
- Services are updated in place in Go, through the pointers the caller holds. The model returns the updated list instead, with the same contents.
- The `lo.Filter` and `lo.SomeBy` helpers are modelled only by their filtering meaning. `lo.Filter` always builds a new slice, so the in-place sort never reorders the held list, and the model's value semantics match.

=== FILE: display.dfy ===
/** The display pipeline (pkg/commands/docker.go:223-264): the exited filter,
    the ignore-list filter and the state/name sort that turn the container
    list into the list the containers panel shows. */
module Display {
  import opened GoStrings
  import opened Seqs
  import opened Model

  /** The runtime state the exited filter drops. */
  const ExitedState := "exited"

  function ExitedTest(h: Heap, showExited: bool): Ref -> bool
  {
    (r: Ref) => r < |h| && (showExited || h[r].summary.state != ExitedState)
  }

  /** `filterOutExited`: the list itself when exited containers are shown,
      else the containers whose state is not exactly `"exited"`, in order. */
  function FilterOutExited(h: Heap, showExited: bool, cs: seq<Ref>): (r: seq<Ref>)
    requires ValidRefs(h, cs)
    ensures showExited ==> r == cs
    ensures KeepsExactly(cs, r, ExitedTest(h, showExited))
    ensures ValidRefs(h, r)
    ensures !showExited ==> forall i :: 0 <= i < |r| ==> h[r[i]].summary.state != ExitedState
  {
    FilterKeepsExactly(cs, ExitedTest(h, showExited));
    if showExited then
      assert Filter(cs, ExitedTest(h, showExited)) == cs;
      cs
    else
      Filter(cs, ExitedTest(h, showExited))
  }

  /** Some entry of the ignore list is a substring of the container's name. */
  predicate Ignored(c: Container, ignore: seq<string>)
  {
    exists k :: 0 <= k < |ignore| && Contains(c.name, ignore[k])
  }

  function NotIgnoredTest(h: Heap, ignore: seq<string>): Ref -> bool
  {
    (r: Ref) => r < |h| && !Ignored(h[r], ignore)
  }

  /** `filterOutIgnoredContainers`: the containers whose name contains no
      entry of the ignore list, in order. */
  function FilterOutIgnored(h: Heap, ignore: seq<string>, cs: seq<Ref>): (r: seq<Ref>)
    requires ValidRefs(h, cs)
    ensures KeepsExactly(cs, r, NotIgnoredTest(h, ignore))
    ensures ValidRefs(h, r)
    ensures forall i :: 0 <= i < |r| ==> forall k :: 0 <= k < |ignore| ==> !Contains(h[r[i]].name, ignore[k])
    ensures ignore == [] ==> r == cs
    ensures "" in ignore ==> r == []
  {
    FilterKeepsExactly(cs, NotIgnoredTest(h, ignore));
    assert forall i :: 0 <= i < |cs| ==> Contains(h[cs[i]].name, "") by {
      forall i | 0 <= i < |cs| ensures Contains(h[cs[i]].name, "") { ContainsIffOccurs(h[cs[i]].name, ""); }
    }
    Filter(cs, NotIgnoredTest(h, ignore))
  }

  /** Both filters are idempotent: a second pass removes nothing more. */
  lemma FiltersIdempotent(h: Heap, showExited: bool, ignore: seq<string>, cs: seq<Ref>)
    requires ValidRefs(h, cs)
    ensures var once := FilterOutExited(h, showExited, cs);
      FilterOutExited(h, showExited, once) == once
    ensures var once := FilterOutIgnored(h, ignore, cs);
      FilterOutIgnored(h, ignore, once) == once
  {
    FilterIdempotent(cs, ExitedTest(h, showExited));
    FilterIdempotent(cs, NotIgnoredTest(h, ignore));
  }

  /** The `states` map of `sortedContainers`. */
  const StateRanks: map<string, nat> := map["running" := 1, ExitedState := 2, "created" := 3]

  /** The sort rank of a state: running 1, exited 2, created 3, and 0 for any
      other state, as Go's map index reads a missing key. */
  function Rank(state: string): (r: nat)
    ensures r == if state in StateRanks then StateRanks[state] else 0
    ensures r <= 3
  {
    if state == "running" then 1
    else if state == ExitedState then 2
    else if state == "created" then 3
    else 0
  }

  /** The less function handed to `sort.Slice`: lower rank first, and within
      a rank the smaller name (Go string order). Equivalently, the
      lexicographic order on (rank, name). */
  function Before(c: Container, d: Container): (b: bool)
    ensures b <==> (
      || Rank(c.summary.state) < Rank(d.summary.state)
      || (Rank(c.summary.state) == Rank(d.summary.state) && LexBelow(c.name, d.name)))
  {
    LessIsLexicographic(c.name, d.name);
    var rc, rd := Rank(c.summary.state), Rank(d.summary.state);
    if rc == rd then Less(c.name, d.name) else rc < rd
  }

  /** No later container should come before an earlier one. */
  ghost predicate SortedByStateAndName(h: Heap, cs: seq<Ref>)
    requires ValidRefs(h, cs)
  {
    forall i, j :: 0 <= i < j < |cs| ==> !Before(h[cs[j]], h[cs[i]])
  }

  lemma BeforeAsymmetric(a: Container, b: Container)
    ensures Before(a, b) ==> !Before(b, a)
  {
    LessTrichotomous(a.name, b.name);
  }

  /** "Not before" is transitive: (rank, name) is a total preorder. */
  lemma NotBeforeTransitive(a: Container, b: Container, c: Container)
    requires !Before(b, a) && !Before(c, b)
    ensures !Before(c, a)
  {
    LessTrichotomous(a.name, b.name);
    LessTrichotomous(b.name, c.name);
    LessTrichotomous(a.name, c.name);
    if Less(c.name, a.name) && Less(a.name, b.name) { LessTransitive(c.name, a.name, b.name); }
    if Less(b.name, c.name) && Less(c.name, a.name) { LessTransitive(b.name, c.name, a.name); }
  }

  /** A sorted list stays sorted behind a head that nothing in it should precede. */
  lemma ConsSorted(h: Heap, a: Ref, rest: seq<Ref>)
    requires ValidRefs(h, rest) && a < |h| && SortedByStateAndName(h, rest)
    requires forall j :: 0 <= j < |rest| ==> !Before(h[rest[j]], h[a])
    ensures ValidRefs(h, [a] + rest) && SortedByStateAndName(h, [a] + rest)
  {
    var r := [a] + rest;
    forall i, j | 0 <= i < j < |r| ensures !Before(h[r[j]], h[r[i]])
    {
      assert r[j] == rest[j - 1];
      if i > 0 {
        assert r[i] == rest[i - 1];
      }
    }
  }

  /** Nothing in a sorted list should precede a head-candidate that its first
      element does not follow. */
  lemma NoneBeforeNewHead(h: Heap, x: Ref, s: seq<Ref>)
    requires ValidRefs(h, s) && x < |h| && SortedByStateAndName(h, s)
    requires |s| > 0 && !Before(h[s[0]], h[x])
    ensures forall j :: 0 <= j < |s| ==> !Before(h[s[j]], h[x])
  {
    forall j | 0 < j < |s| ensures !Before(h[s[j]], h[x]) {
      NotBeforeTransitive(h[x], h[s[0]], h[s[j]]);
    }
  }

  /** After inserting `x` into the tail, nothing should precede the old head. */
  lemma NoneBeforeOldHead(h: Heap, x: Ref, s: seq<Ref>, rest: seq<Ref>)
    requires ValidRefs(h, s) && x < |h| && SortedByStateAndName(h, s)
    requires |s| > 0 && !Before(h[x], h[s[0]])
    requires ValidRefs(h, rest) && multiset(rest) == multiset(s[1..]) + multiset{x}
    ensures forall j :: 0 <= j < |rest| ==> !Before(h[rest[j]], h[s[0]])
  {
    forall j | 0 <= j < |rest| ensures !Before(h[rest[j]], h[s[0]]) {
      assert rest[j] in multiset(rest);
      if rest[j] != x {
        assert rest[j] in multiset(s[1..]);
        var m :| 0 <= m < |s[1..]| && s[1..][m] == rest[j];
        assert s[m + 1] == rest[j];
      }
    }
  }

  /** Inserts `x` into a sorted list, in front of the first element it does
      not follow. */
  function Insert(h: Heap, x: Ref, s: seq<Ref>): (r: seq<Ref>)
    requires ValidRefs(h, s) && x < |h|
    requires SortedByStateAndName(h, s)
    ensures multiset(r) == multiset(s) + multiset{x}
    ensures ValidRefs(h, r)
    ensures SortedByStateAndName(h, r)
    decreases |s|
  {
    if |s| == 0 then [x]
    else if !Before(h[s[0]], h[x]) then
      NoneBeforeNewHead(h, x, s);
      ConsSorted(h, x, s);
      [x] + s
    else
      var rest := Insert(h, x, s[1..]);
      assert multiset(s) == multiset{s[0]} + multiset(s[1..]) by { assert s == [s[0]] + s[1..]; }
      BeforeAsymmetric(h[s[0]], h[x]);
      NoneBeforeOldHead(h, x, s, rest);
      ConsSorted(h, s[0], rest);
      [s[0]] + rest
  }

  /** Sorts by (rank, name); the order of containers equal in both is left to
      the algorithm, as with the unstable `sort.Slice`. */
  function SortByStateAndName(h: Heap, cs: seq<Ref>): (r: seq<Ref>)
    requires ValidRefs(h, cs)
    ensures multiset(r) == multiset(cs)
    ensures ValidRefs(h, r)
    ensures SortedByStateAndName(h, r)
    decreases |cs|
  {
    if |cs| == 0 then []
    else
      assert cs == [cs[0]] + cs[1..];
      Insert(h, cs[0], SortByStateAndName(h, cs[1..]))
  }

  /** `sortedContainers`: the list unchanged in legacy mode; otherwise a
      permutation of it in which no container comes before one it should
      follow by (rank, name). */
  function SortedContainers(h: Heap, legacySort: bool, cs: seq<Ref>): (r: seq<Ref>)
    requires ValidRefs(h, cs)
    ensures legacySort ==> r == cs
    ensures multiset(r) == multiset(cs)
    ensures ValidRefs(h, r)
    ensures !legacySort ==> SortedByStateAndName(h, r)
  {
    if legacySort then cs else SortByStateAndName(h, cs)
  }

  /** In a sorted list unknown states come first, then running, exited and
      created containers, and containers of equal rank are in name order. */
  lemma SortedStateOrder(h: Heap, cs: seq<Ref>, i: nat, j: nat)
    requires ValidRefs(h, cs) && SortedByStateAndName(h, cs)
    requires i < j < |cs|
    ensures Rank(h[cs[i]].summary.state) <= Rank(h[cs[j]].summary.state)
    ensures Rank(h[cs[i]].summary.state) == Rank(h[cs[j]].summary.state) ==>
      !Less(h[cs[j]].name, h[cs[i]].name)
    ensures h[cs[j]].summary.state == "running" ==> h[cs[i]].summary.state !in {ExitedState, "created"}
    ensures h[cs[j]].summary.state == ExitedState ==> h[cs[i]].summary.state != "created"
  {
  }

  /** Two containers tie under the sort: same rank and same name. */
  predicate SameKey(c: Container, d: Container)
  {
    Rank(c.summary.state) == Rank(d.summary.state) && c.name == d.name
  }

  /** Neither should come before the other exactly when they tie. */
  lemma TiesAreSameKey(c: Container, d: Container)
    ensures (!Before(c, d) && !Before(d, c)) <==> SameKey(c, d)
  {
    LessTrichotomous(c.name, d.name);
    LessIrreflexive(c.name);
  }

  /** The head of a sorted list is a least element. */
  lemma SortedHeadIsLeast(h: Heap, a: seq<Ref>)
    requires ValidRefs(h, a) && SortedByStateAndName(h, a) && |a| > 0
    ensures forall j :: 0 <= j < |a| ==> !Before(h[a[j]], h[a[0]])
  {
    TiesAreSameKey(h[a[0]], h[a[0]]);
  }

  /** Removing one element keeps a list sorted. */
  lemma SortedRemove(h: Heap, a: seq<Ref>, p: nat)
    requires ValidRefs(h, a) && SortedByStateAndName(h, a) && p < |a|
    ensures ValidRefs(h, a[..p] + a[p + 1..]) && SortedByStateAndName(h, a[..p] + a[p + 1..])
  {
    var rest := a[..p] + a[p + 1..];
    forall i | 0 <= i < |rest| ensures rest[i] == a[if i < p then i else i + 1] { }
  }

  /** Removing the element at `p` from one list and the head from another
      with the same elements, where both are the same element, leaves two
      lists with the same elements. */
  lemma RemoveMatching(a: seq<Ref>, b: seq<Ref>, p: nat)
    requires multiset(a) == multiset(b) && |b| > 0 && p < |a| && a[p] == b[0]
    ensures multiset(a[..p] + a[p + 1..]) == multiset(b[1..])
  {
    MultisetRemoveAt(a, p);
    assert b == [b[0]] + b[1..];
  }

  /** Removing the element at `p` removes one occurrence of it. */
  lemma MultisetRemoveAt(a: seq<Ref>, p: nat)
    requires p < |a|
    ensures multiset(a[..p] + a[p + 1..]) == multiset(a) - multiset{a[p]}
  {
    assert a == a[..p] + [a[p]] + a[p + 1..];
  }

  /** In a sorted list, everything up to an element that ties with the head
      also ties with the head. */
  lemma SortedPrefixTies(h: Heap, a: seq<Ref>, p: nat)
    requires ValidRefs(h, a) && SortedByStateAndName(h, a) && p < |a|
    requires SameKey(h[a[p]], h[a[0]])
    ensures forall j :: 0 <= j <= p ==> SameKey(h[a[j]], h[a[0]])
  {
    forall j | 0 < j < p ensures SameKey(h[a[j]], h[a[0]])
    {
      assert !Before(h[a[j]], h[a[0]]) && !Before(h[a[p]], h[a[j]]);
      TiesAreSameKey(h[a[j]], h[a[0]]);
    }
  }

  /** Pointwise agreement survives putting back, at the head of the second
      list, an element that ties with everything the first list holds up to
      where it was taken out. */
  lemma AgreeAfterRemoval(h: Heap, a: seq<Ref>, b: seq<Ref>, p: nat)
    requires ValidRefs(h, a) && ValidRefs(h, b) && |a| == |b| && p < |a|
    requires forall j :: 0 <= j <= p ==> SameKey(h[a[j]], h[a[0]])
    requires SameKey(h[a[0]], h[b[0]])
    requires forall i :: 0 <= i < |a| - 1 ==> SameKey(h[(a[..p] + a[p + 1..])[i]], h[b[1..][i]])
    ensures forall i :: 0 <= i < |a| ==> SameKey(h[a[i]], h[b[i]])
  {
    var rest := a[..p] + a[p + 1..];
    forall i | 0 < i < |a| ensures SameKey(h[a[i]], h[b[i]])
    {
      assert SameKey(h[rest[i - 1]], h[b[1..][i - 1]]);
      if i <= p {
        assert rest[i - 1] == a[i - 1];
      } else {
        assert rest[i - 1] == a[i];
      }
    }
  }

  /** The heads of two permutations of one list occur in each other. */
  lemma FindHeads(a: seq<Ref>, b: seq<Ref>) returns (p: nat, q: nat)
    requires |a| > 0 && |b| > 0 && multiset(a) == multiset(b)
    ensures p < |a| && a[p] == b[0]
    ensures q < |b| && b[q] == a[0]
  {
    assert b[0] in multiset(a) && a[0] in multiset(b);
    p :| 0 <= p < |a| && a[p] == b[0];
    q :| 0 <= q < |b| && b[q] == a[0];
  }

  /** The heads of two sorted permutations tie, and so does everything in
      the first list up to where the second list's head sits. */
  lemma HeadsTie(h: Heap, a: seq<Ref>, b: seq<Ref>, p: nat, q: nat)
    requires ValidRefs(h, a) && ValidRefs(h, b)
    requires SortedByStateAndName(h, a) && SortedByStateAndName(h, b)
    requires p < |a| && q < |b| && a[p] == b[0] && b[q] == a[0]
    ensures SameKey(h[a[0]], h[b[0]])
    ensures forall j :: 0 <= j <= p ==> SameKey(h[a[j]], h[a[0]])
  {
    SortedHeadIsLeast(h, a);
    SortedHeadIsLeast(h, b);
    assert !Before(h[a[p]], h[a[0]]) && !Before(h[b[q]], h[b[0]]);
    TiesAreSameKey(h[a[0]], h[b[0]]);
    SortedPrefixTies(h, a, p);
  }

  /** Taking the second list's head out of both lists leaves two sorted
      permutations of one list. */
  lemma RemoveHeads(h: Heap, a: seq<Ref>, b: seq<Ref>, p: nat)
    requires ValidRefs(h, a) && ValidRefs(h, b)
    requires SortedByStateAndName(h, a) && SortedByStateAndName(h, b)
    requires multiset(a) == multiset(b) && |b| > 0 && p < |a| && a[p] == b[0]
    ensures ValidRefs(h, a[..p] + a[p + 1..]) && SortedByStateAndName(h, a[..p] + a[p + 1..])
    ensures ValidRefs(h, b[1..]) && SortedByStateAndName(h, b[1..])
    ensures multiset(a[..p] + a[p + 1..]) == multiset(b[1..])
  {
    SortedRemove(h, a, p);
    RemoveMatching(a, b, p);
  }

  /** Any two sorted permutations of the same list agree position by
      position on rank and name: an unstable sort may order tied containers
      either way, and nothing else. */
  lemma {:induction false} SortedPermutationsAgree(h: Heap, a: seq<Ref>, b: seq<Ref>)
    requires ValidRefs(h, a) && ValidRefs(h, b)
    requires SortedByStateAndName(h, a) && SortedByStateAndName(h, b)
    requires multiset(a) == multiset(b)
    ensures |a| == |b|
    ensures forall i :: 0 <= i < |a| ==> SameKey(h[a[i]], h[b[i]])
    decreases |a|
  {
    assert |a| == |multiset(a)| == |multiset(b)| == |b|;
    if |a| > 0 {
      var p, q := FindHeads(a, b);
      HeadsTie(h, a, b, p, q);
      RemoveHeads(h, a, b, p);
      SortedPermutationsAgree(h, a[..p] + a[p + 1..], b[1..]);
      AgreeAfterRemoval(h, a, b, p);
    }
  }
}

=== FILE: model.dfy ===
/** The records the reconciliation core works on. Go shares `*Container`
    pointers between the registry list, the display list and services; the
    model makes that sharing explicit with a heap of container objects
    addressed by `Ref`. */
module Model {
  import opened Wrappers
  import opened GoStrings

  /** Labels the compose tooling puts on containers (pkg/commands/docker.go:322-330). */
  const NameLabel := "name"
  const ServiceLabel := "com.docker.compose.service"
  const ProjectLabel := "com.docker.compose.project"
  const NumberLabel := "com.docker.compose.container"
  const OneOffLabel := "com.docker.compose.oneoff"
  /** The compose tooling's truthy marker, compared case-sensitively. */
  const OneOffMarker := "True"

  /** One entry of the runtime's container listing (`types.Container`). */
  datatype Summary = Summary(id: string, names: seq<string>, labels: map<string, string>, state: string)

  /** One recorded stats sample. Its derived percentages come from floating-point
      arithmetic that is outside this model; the core only stores samples. */
  datatype RecordedStats = RecordedStats(cpuPercentage: real, memoryPercentage: real, recordedAt: int)

  /** The inspect payload attached to a container; not interpreted by this core. */
  datatype Details = Details(inspect: map<string, string>)

  /** A container object. `id` is set once, at creation. The observed fields
      (`name` … `summary`) are overwritten on every refresh; the owned fields
      (`monitoringStats`, `statHistory`, `details`) belong to the object and
      survive refreshes. */
  datatype Container = Container(
    id: string,
    name: string,
    serviceName: string,
    projectName: string,
    containerNumber: string,
    oneOff: bool,
    summary: Summary,
    monitoringStats: bool,
    statHistory: seq<RecordedStats>,
    details: Option<Details>)

  /** A pointer to a container object. */
  type Ref = nat
  /** All container objects ever allocated; a `Ref` indexes into it. */
  type Heap = seq<Container>

  /** A compose service; `container` is Go's nil-able `*Container`. */
  datatype Service = Service(name: string, id: string, container: Option<Ref>)

  predicate ValidRefs(h: Heap, rs: seq<Ref>)
  {
    forall i :: 0 <= i < |rs| ==> rs[i] < |h|
  }

  /** Go's map index: a missing label reads as the empty string. */
  function Label(s: Summary, key: string): string
  {
    if key in s.labels then s.labels[key] else ""
  }

  /** A display name can be computed without indexing an empty `Names`. */
  predicate Nameable(s: Summary)
  {
    NameLabel in s.labels || |s.names| > 0
  }

  predicate AllNameable(fetched: seq<Summary>)
  {
    forall i :: 0 <= i < |fetched| ==> Nameable(fetched[i])
  }

  /** The observed fields of `c` are those `s` dictates: the `name` label
      verbatim when present, else the first system name without any leading
      `/`; the compose labels, empty when missing; one-off exactly when the
      one-off label is `"True"`; and the raw summary. */
  ghost predicate ObservedFrom(c: Container, s: Summary)
  {
    && c.summary == s
    && (NameLabel in s.labels ==> c.name == s.labels[NameLabel])
    && (NameLabel !in s.labels ==> |s.names| > 0 && IsLeftTrimmed(s.names[0], '/', c.name))
    && (ServiceLabel in s.labels ==> c.serviceName == s.labels[ServiceLabel])
    && (ServiceLabel !in s.labels ==> c.serviceName == "")
    && (ProjectLabel in s.labels ==> c.projectName == s.labels[ProjectLabel])
    && (ProjectLabel !in s.labels ==> c.projectName == "")
    && (NumberLabel in s.labels ==> c.containerNumber == s.labels[NumberLabel])
    && (NumberLabel !in s.labels ==> c.containerNumber == "")
    && (c.oneOff <==> OneOffLabel in s.labels && s.labels[OneOffLabel] == OneOffMarker)
  }

  /** The compose fields an observation records read the labels exactly as
      Go's map index does. */
  lemma ObservedLabels(c: Container, s: Summary)
    requires ObservedFrom(c, s)
    ensures c.serviceName == Label(s, ServiceLabel)
    ensures c.projectName == Label(s, ProjectLabel)
    ensures c.containerNumber == Label(s, NumberLabel)
    ensures c.oneOff <==> Label(s, OneOffLabel) == OneOffMarker
  {
  }

  /** The owned state of `a` and `b` agree. */
  predicate SameOwned(a: Container, b: Container)
  {
    a.monitoringStats == b.monitoringStats && a.statHistory == b.statHistory && a.details == b.details
  }

  /** The owned state of a freshly constructed container. */
  predicate FreshOwned(c: Container)
  {
    !c.monitoringStats && c.statHistory == [] && c.details == None
  }

  /** Overwrites the observed fields of `c` from `s`
      (pkg/commands/docker.go:320-330); identity and owned state are untouched. */
  function Observe(c: Container, s: Summary): (c': Container)
    requires Nameable(s)
    ensures ObservedFrom(c', s)
    ensures c'.id == c.id && SameOwned(c', c)
  {
    c.(
      summary := s,
      name := if NameLabel in s.labels then s.labels[NameLabel] else TrimLeft(s.names[0], '/'),
      serviceName := Label(s, ServiceLabel),
      projectName := Label(s, ProjectLabel),
      containerNumber := Label(s, NumberLabel),
      oneOff := Label(s, OneOffLabel) == OneOffMarker)
  }

  /** A container as first constructed for a new ID: not monitored, no history,
      no details. Its observed fields are written straight after. */
  function NewContainer(s: Summary): (c: Container)
    ensures c.id == s.id && FreshOwned(c)
  {
    Container(s.id, "", "", "", "", false, s, false, [], None)
  }
}

=== FILE: refresh.dfy ===
/** `RefreshContainersAndServices` (pkg/commands/docker.go:175-208) as one
    atomic transition of the registry: the listing, the compose tool's output
    and the configuration are inputs; the mutexes are not modelled because
    each refresh is taken as a single step. */
module Refresh {
  import opened Wrappers
  import opened Seqs
  import opened Model
  import opened Registry
  import opened Services
  import opened Display

  /** The switches the core reads: `ShowExited` and `InDockerComposeProject`
      of the command object, and the user's GUI and ignore settings. */
  datatype Settings = Settings(
    showExited: bool,
    inComposeProject: bool,
    showAllContainers: bool,
    legacySortContainers: bool,
    ignore: seq<string>)

  /** The registry: every container object, the held list `Containers` and
      the list shown in the containers panel, `DisplayContainers`. */
  datatype State = State(heap: Heap, containers: seq<Ref>, display: seq<Ref>)

  predicate Valid(st: State)
  {
    ValidRefs(st.heap, st.containers) && ValidRefs(st.heap, st.display)
  }

  /** What a successful refresh hands back: the display list and the services
      (`None` for Go's nil slice). */
  datatype Refreshed = Refreshed(display: seq<Ref>, services: Option<seq<Service>>)

  /** Go's range over a nil slice sees no elements. */
  function Elements(services: Option<seq<Service>>): seq<Service>
  {
    if services.Some? then services.value else []
  }

  /** A container appears in the display list: it is standalone (unless all
      containers are shown), not exited (unless exited ones are shown), and
      its name contains no ignore entry. */
  predicate Shown(c: Container, cfg: Settings, services: seq<Service>)
  {
    && (cfg.showAllContainers || IsStandalone(c, services))
    && (cfg.showExited || c.summary.state != ExitedState)
    && !Ignored(c, cfg.ignore)
  }

  function ShownTest(h: Heap, cfg: Settings, services: seq<Service>): Ref -> bool
  {
    (r: Ref) => r < |h| && Shown(h[r], cfg, services)
  }

  /** The containers the first stage keeps: all of them, or the standalone ones. */
  function BaseTest(h: Heap, cfg: Settings, services: seq<Service>): Ref -> bool
  {
    (r: Ref) => r < |h| && (cfg.showAllContainers || IsStandalone(h[r], services))
  }

  /** The containers the first two stages keep. */
  function FirstTwoTest(h: Heap, cfg: Settings, services: seq<Service>): Ref -> bool
  {
    (r: Ref) => r < |h| && (cfg.showAllContainers || IsStandalone(h[r], services)) &&
      (cfg.showExited || h[r].summary.state != ExitedState)
  }

  /** The first stage: all containers, or the standalone ones. */
  function BaseList(h: Heap, cfg: Settings, cs: seq<Ref>, services: seq<Service>): (r: seq<Ref>)
    requires ValidRefs(h, cs)
    ensures ValidRefs(h, r)
    ensures KeepsExactly(cs, r, BaseTest(h, cfg, services))
  {
    if cfg.showAllContainers then
      SelectsEverything(cs, BaseTest(h, cfg, services));
      SubseqReflexive(cs);
      cs
    else
      var r := StandaloneContainers(h, cs, services);
      SelectsSameTest(cs, r, StandaloneTest(h, services), BaseTest(h, cfg, services));
      r
  }

  /** The display list of pkg/commands/docker.go:197-205: standalone selection,
      exited filter, ignore filter, sort. Each shown container occurs exactly
      as often as in the container list; nothing else occurs. */
  function DisplayList(h: Heap, cfg: Settings, cs: seq<Ref>, services: seq<Service>): (r: seq<Ref>)
    requires ValidRefs(h, cs)
    ensures ValidRefs(h, r)
    ensures Selects(cs, r, ShownTest(h, cfg, services))
    ensures cfg.legacySortContainers ==> IsSubseq(r, cs)
    ensures !cfg.legacySortContainers ==> SortedByStateAndName(h, r)
  {
    var base := BaseList(h, cfg, cs, services);
    var notExited := FilterOutExited(h, cfg.showExited, base);
    var notIgnored := FilterOutIgnored(h, cfg.ignore, notExited);
    var r := SortedContainers(h, cfg.legacySortContainers, notIgnored);
    SelectsThenSelects(cs, base, notExited, BaseTest(h, cfg, services), ExitedTest(h, cfg.showExited),
      FirstTwoTest(h, cfg, services));
    SelectsThenSelects(cs, notExited, notIgnored, FirstTwoTest(h, cfg, services), NotIgnoredTest(h, cfg.ignore),
      ShownTest(h, cfg, services));
    SubseqTransitive(notExited, base, cs);
    SubseqTransitive(notIgnored, notExited, cs);
    r
  }

  /** Assigning containers changes no service name, so the display list
      computed before the assignment selects the same containers as one
      computed after it. */
  lemma ShownAfterReassignment(h: Heap, cfg: Settings, cs: seq<Ref>, svcs: Option<seq<Service>>, display: seq<Ref>)
    requires ValidRefs(h, cs)
    requires Selects(cs, display, ShownTest(h, cfg, Elements(svcs)))
    ensures Selects(cs, display, ShownTest(h, cfg, Elements(
      if svcs.Some? then Some(AssignContainers(h, cs, svcs.value)) else None)))
  {
    var before := Elements(svcs);
    var after := Elements(if svcs.Some? then Some(AssignContainers(h, cs, svcs.value)) else None);
    assert |after| == |before| && forall j :: 0 <= j < |after| ==> after[j].name == before[j].name;
    forall c: Container ensures IsStandalone(c, before) == IsStandalone(c, after)
    {
      if !IsStandalone(c, before) {
        var j :| 0 <= j < |before| && before[j].name == c.serviceName;
        assert after[j].name == c.serviceName;
      }
    }
    SelectsSameTest(cs, display, ShownTest(h, cfg, before), ShownTest(h, cfg, after));
  }

  /** The rest of a refresh once the listing is merged: on a service error
      only the heap changes; otherwise the held list becomes the merged list,
      services are reassigned and the display list is rebuilt. */
  function Conclude(st: State, cfg: Settings, m: Merged, services: Result<Option<seq<Service>>>): (out: (State, Result<Refreshed>))
    requires Valid(st) && ValidRefs(m.heap, m.refs) && |st.heap| <= |m.heap|
    ensures Valid(out.0) && out.0.heap == m.heap
    ensures out.1.Err? <==> services.Err?
    ensures out.1.Err? ==> out.0.containers == st.containers && out.0.display == st.display
    ensures out.1.Ok? ==> out.0.containers == m.refs && out.1.value.display == out.0.display
    ensures out.1.Ok? ==> (out.1.value.services ==
      if services.value.Some? then Some(AssignContainers(m.heap, m.refs, services.value.value)) else None)
    ensures out.1.Ok? ==>
      Selects(out.0.containers, out.0.display, ShownTest(out.0.heap, cfg, Elements(out.1.value.services)))
    ensures out.1.Ok? && cfg.legacySortContainers ==> IsSubseq(out.0.display, out.0.containers)
    ensures out.1.Ok? && !cfg.legacySortContainers ==> SortedByStateAndName(out.0.heap, out.0.display)
  {
    match services
    case Err(e) => (st.(heap := m.heap), Err(e))
    case Ok(svcs) =>
      var reassigned := if svcs.Some? then Some(AssignContainers(m.heap, m.refs, svcs.value)) else None;
      var display := DisplayList(m.heap, cfg, m.refs, Elements(svcs));
      ShownAfterReassignment(m.heap, cfg, m.refs, svcs, display);
      (State(m.heap, m.refs, display), Ok(Refreshed(display, reassigned)))
  }

  /** Where the services of a refresh come from: those passed in, none
      outside a compose project, or the parsed output of the compose tool. */
  lemma ServicesOutcome(cfg: Settings, currentServices: Option<seq<Service>>, composeOutput: Result<seq<string>>,
                        services: Result<Option<seq<Service>>>)
    requires currentServices.None? && cfg.inComposeProject && composeOutput.Ok? ==>
      forall i :: 0 <= i < |composeOutput.value| ==> HasTwoFields(composeOutput.value[i])
    requires services == if currentServices.Some? then Ok(currentServices)
      else GetServices(cfg.inComposeProject, composeOutput)
    ensures services.Err? <==> currentServices.None? && cfg.inComposeProject && composeOutput.Err?
    ensures services.Ok? && currentServices.Some? ==> services.value == currentServices
    ensures services.Ok? && currentServices.None? && !cfg.inComposeProject ==> services.value == None
    ensures services.Ok? && currentServices.None? && cfg.inComposeProject ==>
      services.value == Some(ParseServices(composeOutput.value))
  {
  }

  /** The refresh. A failed listing leaves the registry exactly as it was. A
      failed compose tool (consulted only when no services are passed in and
      the directory is a compose project) leaves both lists as they were,
      although the held objects that the listing matched have already had
      their observed fields overwritten. On success the held list becomes the
      merged list, services are reassigned and the display list is rebuilt. */
  function RefreshContainersAndServices(
    st: State, cfg: Settings, currentServices: Option<seq<Service>>,
    listing: Result<seq<Summary>>, composeOutput: Result<seq<string>>): (out: (State, Result<Refreshed>))
    requires Valid(st)
    requires listing.Ok? ==> AllNameable(listing.value)
    requires listing.Ok? && currentServices.None? && cfg.inComposeProject && composeOutput.Ok? ==>
      forall i :: 0 <= i < |composeOutput.value| ==> HasTwoFields(composeOutput.value[i])
    ensures Valid(out.0)
    ensures out.1.Err? <==>
      listing.Err? || (currentServices.None? && cfg.inComposeProject && composeOutput.Err?)
    ensures listing.Err? ==> out.0 == st
    ensures out.1.Err? ==> out.0.containers == st.containers && out.0.display == st.display
    ensures listing.Ok? ==> out.0.heap == Merge(st.heap, st.containers, listing.value).heap
    ensures out.1.Ok? ==> out.0.containers == Merge(st.heap, st.containers, listing.value).refs
    ensures out.1.Ok? ==> out.1.value.display == out.0.display
    ensures out.1.Ok? && currentServices.Some? ==>
      out.1.value.services == Some(AssignContainers(out.0.heap, out.0.containers, currentServices.value))
    ensures out.1.Ok? && currentServices.None? && !cfg.inComposeProject ==> out.1.value.services == None
    ensures out.1.Ok? && currentServices.None? && cfg.inComposeProject ==>
      out.1.value.services == Some(AssignContainers(out.0.heap, out.0.containers, ParseServices(composeOutput.value)))
    ensures out.1.Ok? ==>
      Selects(out.0.containers, out.0.display, ShownTest(out.0.heap, cfg, Elements(out.1.value.services)))
    ensures out.1.Ok? && cfg.legacySortContainers ==> IsSubseq(out.0.display, out.0.containers)
    ensures out.1.Ok? && !cfg.legacySortContainers ==> SortedByStateAndName(out.0.heap, out.0.display)
  {
    match listing
    case Err(e) => (st, Err(e))
    case Ok(fetched) =>
      var m := Merge(st.heap, st.containers, fetched);
      var services := if currentServices.Some? then Ok(currentServices) else GetServices(cfg.inComposeProject, composeOutput);
      ServicesOutcome(cfg, currentServices, composeOutput, services);
      Conclude(st, cfg, m, services)
  }

  /** Services passed in are used as they are: the compose tool's output
      plays no part in the refresh. */
  lemma GivenServicesAreNotRefetched(
    st: State, cfg: Settings, services: seq<Service>, listing: Result<seq<Summary>>,
    output1: Result<seq<string>>, output2: Result<seq<string>>)
    requires Valid(st)
    requires listing.Ok? ==> AllNameable(listing.value)
    ensures RefreshContainersAndServices(st, cfg, Some(services), listing, output1) ==
            RefreshContainersAndServices(st, cfg, Some(services), listing, output2)
  {
  }

  /** Across a refresh, every container still listed under a held ID is the
      same object, with its monitoring flag, stats history and details intact
      (so the history never shrinks). */
  lemma RefreshPreservesIdentity(
    st: State, cfg: Settings, currentServices: Option<seq<Service>>,
    listing: Result<seq<Summary>>, composeOutput: Result<seq<string>>, i: nat, k: nat)
    requires Valid(st)
    requires listing.Ok? ==> AllNameable(listing.value)
    requires listing.Ok? && currentServices.None? && cfg.inComposeProject && composeOutput.Ok? ==>
      forall i :: 0 <= i < |composeOutput.value| ==> HasTwoFields(composeOutput.value[i])
    requires listing.Ok? && i < |listing.value| && k < |st.containers|
    requires st.heap[st.containers[k]].id == listing.value[i].id
    ensures var out := RefreshContainersAndServices(st, cfg, currentServices, listing, composeOutput);
      out.1.Ok? ==>
        var r := out.0.containers[i];
        r < |st.heap| && st.heap[r].id == listing.value[i].id &&
        out.0.heap[r].monitoringStats == st.heap[r].monitoringStats &&
        out.0.heap[r].details == st.heap[r].details &&
        out.0.heap[r].statHistory == st.heap[r].statHistory
  {
    MergeKeepsOwnedState(st.heap, st.containers, listing.value, i, k);
  }
}

=== FILE: registry.dfy ===
/** The container registry merge of `GetContainers`
    (pkg/commands/docker.go:283-336): the fresh listing is turned into a list
    of container objects, reusing the object already held for an ID. */
module Registry {
  import opened Wrappers
  import opened Model

  /** Position of the first held container whose ID is `id`, as the linear
      search of pkg/commands/docker.go:300-305 finds it. */
  function FirstHeld(h: Heap, held: seq<Ref>, id: string): (k: Option<nat>)
    requires ValidRefs(h, held)
    ensures k.Some? ==> k.value < |held| && h[held[k.value]].id == id
    ensures k.Some? ==> forall j :: 0 <= j < k.value ==> h[held[j]].id != id
    ensures k.None? <==> forall j :: 0 <= j < |held| ==> h[held[j]].id != id
    decreases |held|
  {
    if |held| == 0 then None
    else if h[held[0]].id == id then Some(0)
    else match FirstHeld(h, held[1..], id)
      case Some(k) => Some(k + 1)
      case None => None
  }

  /** The search only reads IDs, so a heap that keeps every held object's ID
      gives the same answer. */
  lemma FirstHeldStable(h: Heap, h': Heap, held: seq<Ref>, id: string)
    requires ValidRefs(h, held) && |h| <= |h'|
    requires forall k :: 0 <= k < |h| ==> h'[k].id == h[k].id
    ensures FirstHeld(h', held, id) == FirstHeld(h, held, id)
  {
    assert forall j :: 0 <= j < |held| ==> h'[held[j]].id == h[held[j]].id;
  }

  /** The result of a merge: the heap after it, and the new container list. */
  datatype Merged = Merged(heap: Heap, refs: seq<Ref>)

  /** The object used for `id`: the first held one with that ID, else a fresh
      one (a reference past the end of the heap before the merge). */
  ghost predicate PlacedFor(h: Heap, held: seq<Ref>, id: string, r: Ref)
    requires ValidRefs(h, held)
  {
    var f := FirstHeld(h, held, id);
    (f.Some? ==> r == held[f.value]) && (f.None? ==> r >= |h|)
  }

  /** Overwriting object `r` with a value of the same ID and owned state
      changes no ID or owned state, and no other object. */
  lemma OverwriteKeepsOwned(h: Heap, r: Ref, c: Container)
    requires r < |h| && c.id == h[r].id && SameOwned(c, h[r])
    ensures |h[r := c]| == |h| && h[r := c][r] == c
    ensures forall j :: 0 <= j < |h| ==> h[r := c][j].id == h[j].id && SameOwned(h[r := c][j], h[j])
    ensures forall j :: 0 <= j < |h| && j != r ==> h[r := c][j] == h[j]
  {
  }

  /** Appending object `c` leaves every existing object as it was. */
  lemma AppendKeeps(h: Heap, c: Container)
    ensures |h + [c]| == |h| + 1 && (h + [c])[|h|] == c
    ensures forall j :: 0 <= j < |h| ==> (h + [c])[j] == h[j]
  {
  }

  /** The outcome of one loop iteration: the heap after the write and the
      object used for the summary. */
  datatype Placed = Placed(heap: Heap, used: Ref)

  /** One iteration of the loop of pkg/commands/docker.go:296-333: find the
      held object for `s.id` or allocate a new one, then overwrite its
      observed fields. Returns the heap after the write and the object used. */
  function Place(h: Heap, held: seq<Ref>, s: Summary): (p: Placed)
    requires ValidRefs(h, held) && Nameable(s)
    ensures PlacedFor(h, held, s.id, p.used)
    ensures |h| <= |p.heap| && p.used < |p.heap| && (p.used < |h| ==> |p.heap| == |h|)
    ensures p.used >= |h| ==> p.used == |h| && |p.heap| == |h| + 1 && FreshOwned(p.heap[p.used])
    ensures p.heap[p.used].id == s.id && ObservedFrom(p.heap[p.used], s)
    ensures forall k :: 0 <= k < |h| ==> p.heap[k].id == h[k].id && SameOwned(p.heap[k], h[k])
    ensures forall k :: 0 <= k < |p.heap| && k != p.used ==> k < |h| && p.heap[k] == h[k]
  {
    match FirstHeld(h, held, s.id)
    case Some(k) =>
      var c := Observe(h[held[k]], s);
      OverwriteKeepsOwned(h, held[k], c);
      Placed(h[held[k] := c], held[k])
    case None =>
      var c := Observe(NewContainer(s), s);
      AppendKeeps(h, c);
      Placed(h + [c], |h|)
  }

  /** One entry per fetched summary, in fetched order, carrying its ID. */
  ghost predicate OnePerSummary(h: Heap, held: seq<Ref>, fetched: seq<Summary>, m: Merged)
  {
    && |m.refs| == |fetched| && |h| <= |m.heap|
    && ValidRefs(m.heap, m.refs) && ValidRefs(m.heap, held)
    && forall i :: 0 <= i < |fetched| ==> m.heap[m.refs[i]].id == fetched[i].id
  }

  /** Held objects are reused by ID; fresh objects are never shared between entries. */
  ghost predicate ReusesHeld(h: Heap, held: seq<Ref>, fetched: seq<Summary>, m: Merged)
  {
    && ValidRefs(h, held) && |m.refs| == |fetched|
    && (forall i :: 0 <= i < |fetched| ==> PlacedFor(h, held, fetched[i].id, m.refs[i]))
    && (forall i, j :: 0 <= i < |fetched| && 0 <= j < |fetched| && i != j && m.refs[i] >= |h| ==>
         m.refs[i] != m.refs[j])
  }

  /** Existing objects keep their ID and owned state; new ones start empty. */
  ghost predicate KeepsOwned(h: Heap, m: Merged)
  {
    && |h| <= |m.heap|
    && (forall k :: 0 <= k < |h| ==> m.heap[k].id == h[k].id && SameOwned(m.heap[k], h[k]))
    && (forall k :: |h| <= k < |m.heap| ==> FreshOwned(m.heap[k]))
  }

  /** The last entry for an object carries that entry's observations. */
  ghost predicate LastWriteWins(fetched: seq<Summary>, m: Merged)
  {
    && |m.refs| == |fetched| && ValidRefs(m.heap, m.refs)
    && forall i :: 0 <= i < |fetched| && m.refs[i] !in m.refs[i + 1..] ==>
         ObservedFrom(m.heap[m.refs[i]], fetched[i])
  }

  /** Objects no entry refers to are old and untouched. */
  ghost predicate OthersUntouched(h: Heap, fetched: seq<Summary>, m: Merged)
  {
    && |m.refs| == |fetched|
    && forall k :: 0 <= k < |m.heap| && k !in m.refs ==> k < |h| && m.heap[k] == h[k]
  }

  /** Extends the merge of a prefix by the next summary. */
  function Extend(prev: Merged, held: seq<Ref>, s: Summary): Merged
    requires ValidRefs(prev.heap, held) && Nameable(s)
  {
    var p := Place(prev.heap, held, s);
    Merged(p.heap, prev.refs + [p.used])
  }

  /** `GetContainers` after a successful listing. Entry `i` of the result is
      the container object for `fetched[i]`: the first held object with the
      same ID when there is one, otherwise a freshly allocated object. That
      object's observed fields are then overwritten from the summary. Only
      the held list is searched, never the objects created during this merge:
      a held ID listed twice gives two entries sharing one object, on which
      the later summary's observations win, while a new ID listed twice gets
      two fresh objects, each observed from its own summary. */
  function Merge(h: Heap, held: seq<Ref>, fetched: seq<Summary>): (m: Merged)
    requires ValidRefs(h, held)
    requires AllNameable(fetched)
    ensures OnePerSummary(h, held, fetched, m)
    ensures ReusesHeld(h, held, fetched, m)
    ensures KeepsOwned(h, m)
    ensures LastWriteWins(fetched, m)
    ensures OthersUntouched(h, fetched, m)
    decreases |fetched|
  {
    if |fetched| == 0 then Merged(h, [])
    else
      var n := |fetched| - 1;
      var prev := Merge(h, held, fetched[..n]);
      var m := Extend(prev, held, fetched[n]);
      ExtendPreservesSpec(h, held, fetched, prev);
      m
  }

  /** The merge of a prefix, extended by the next summary, satisfies every
      clause of the merge contract for the longer list. */
  lemma ExtendPreservesSpec(h: Heap, held: seq<Ref>, fetched: seq<Summary>, prev: Merged)
    requires ValidRefs(h, held) && AllNameable(fetched) && |fetched| > 0
    requires var pre := fetched[..|fetched| - 1];
      && OnePerSummary(h, held, pre, prev) && ReusesHeld(h, held, pre, prev)
      && KeepsOwned(h, prev) && LastWriteWins(pre, prev) && OthersUntouched(h, pre, prev)
    ensures var m := Extend(prev, held, fetched[|fetched| - 1]);
      && OnePerSummary(h, held, fetched, m) && ReusesHeld(h, held, fetched, m)
      && KeepsOwned(h, m) && LastWriteWins(fetched, m) && OthersUntouched(h, fetched, m)
  {
    var n := |fetched| - 1;
    var s := fetched[n];
    FirstHeldStable(h, prev.heap, held, s.id);
    ExtendShape(h, held, fetched, prev);
    ExtendReuse(h, held, fetched, prev);
    ExtendOwned(h, held, fetched, prev);
    ExtendLastWrite(held, fetched, prev);
    ExtendUntouched(h, held, fetched, prev);
  }

  lemma ExtendShape(h: Heap, held: seq<Ref>, fetched: seq<Summary>, prev: Merged)
    requires ValidRefs(h, held) && AllNameable(fetched) && |fetched| > 0
    requires OnePerSummary(h, held, fetched[..|fetched| - 1], prev)
    ensures OnePerSummary(h, held, fetched, Extend(prev, held, fetched[|fetched| - 1]))
  {
    var p := Place(prev.heap, held, fetched[|fetched| - 1]);
    ShapeAppend(h, held, fetched, prev, p.heap, p.used);
  }

  /** Appending an entry for the last summary's ID, on a heap that only grows
      and keeps every ID, keeps one entry per summary. */
  lemma ShapeAppend(h: Heap, held: seq<Ref>, fetched: seq<Summary>, prev: Merged, heap': Heap, r: Ref)
    requires |fetched| > 0 && OnePerSummary(h, held, fetched[..|fetched| - 1], prev)
    requires |prev.heap| <= |heap'| && r < |heap'| && heap'[r].id == fetched[|fetched| - 1].id
    requires forall k :: 0 <= k < |prev.heap| ==> heap'[k].id == prev.heap[k].id
    ensures OnePerSummary(h, held, fetched, Merged(heap', prev.refs + [r]))
  {
    var n := |fetched| - 1;
    var pre := fetched[..n];
    var refs := prev.refs + [r];
    forall i | 0 <= i < |fetched|
      ensures refs[i] < |heap'| && heap'[refs[i]].id == fetched[i].id
    {
      if i < n {
        assert refs[i] == prev.refs[i] && pre[i] == fetched[i];
        assert prev.heap[prev.refs[i]].id == pre[i].id;
      }
    }
  }

  lemma ExtendReuse(h: Heap, held: seq<Ref>, fetched: seq<Summary>, prev: Merged)
    requires ValidRefs(h, held) && AllNameable(fetched) && |fetched| > 0
    requires OnePerSummary(h, held, fetched[..|fetched| - 1], prev)
    requires ReusesHeld(h, held, fetched[..|fetched| - 1], prev)
    requires FirstHeld(prev.heap, held, fetched[|fetched| - 1].id) == FirstHeld(h, held, fetched[|fetched| - 1].id)
    ensures ReusesHeld(h, held, fetched, Extend(prev, held, fetched[|fetched| - 1]))
  {
    var n := |fetched| - 1;
    var p := Place(prev.heap, held, fetched[n]);
    assert PlacedFor(h, held, fetched[n].id, p.used) by {
      assert PlacedFor(prev.heap, held, fetched[n].id, p.used);
    }
    assert p.used >= |h| ==> p.used == |prev.heap| by {
      if p.used < |prev.heap| {
        assert FirstHeld(h, held, fetched[n].id).Some?;
      }
    }
    ReuseAppend(h, held, fetched, prev, p.heap, p.used);
  }

  /** The reuse clause survives appending an entry placed for the next ID. */
  lemma ReuseAppend(h: Heap, held: seq<Ref>, fetched: seq<Summary>, prev: Merged, heap': Heap, r: Ref)
    requires |fetched| > 0 && ValidRefs(prev.heap, prev.refs) && |h| <= |prev.heap|
    requires ReusesHeld(h, held, fetched[..|fetched| - 1], prev)
    requires PlacedFor(h, held, fetched[|fetched| - 1].id, r)
    requires r >= |h| ==> r == |prev.heap|
    ensures ReusesHeld(h, held, fetched, Merged(heap', prev.refs + [r]))
  {
    var n := |fetched| - 1;
    var pre := fetched[..n];
    var refs := prev.refs + [r];
    forall i | 0 <= i < |fetched|
      ensures PlacedFor(h, held, fetched[i].id, refs[i])
    {
      if i < n {
        assert refs[i] == prev.refs[i] && fetched[i] == pre[i];
      }
    }
    forall i, j | 0 <= i < |fetched| && 0 <= j < |fetched| && i != j && refs[i] >= |h|
      ensures refs[i] != refs[j]
    {
      if i < n && j < n {
        assert refs[i] == prev.refs[i] && refs[j] == prev.refs[j];
      } else if i == n {
        assert refs[j] == prev.refs[j] && prev.refs[j] < |prev.heap|;
      } else {
        assert refs[i] == prev.refs[i] && prev.refs[i] < |prev.heap|;
      }
    }
  }

  lemma ExtendOwned(h: Heap, held: seq<Ref>, fetched: seq<Summary>, prev: Merged)
    requires ValidRefs(h, held) && AllNameable(fetched) && |fetched| > 0
    requires OnePerSummary(h, held, fetched[..|fetched| - 1], prev)
    requires KeepsOwned(h, prev)
    ensures KeepsOwned(h, Extend(prev, held, fetched[|fetched| - 1]))
  {
    var n := |fetched| - 1;
    var p := Place(prev.heap, held, fetched[n]);
    var m := Merged(p.heap, prev.refs + [p.used]);
    assert m == Extend(prev, held, fetched[n]);
    forall k | |h| <= k < |m.heap| ensures FreshOwned(m.heap[k])
    {
      if k < |prev.heap| {
        assert SameOwned(m.heap[k], prev.heap[k]) && FreshOwned(prev.heap[k]);
      }
    }
  }

  lemma ExtendLastWrite(held: seq<Ref>, fetched: seq<Summary>, prev: Merged)
    requires ValidRefs(prev.heap, held) && AllNameable(fetched) && |fetched| > 0
    requires LastWriteWins(fetched[..|fetched| - 1], prev)
    ensures LastWriteWins(fetched, Extend(prev, held, fetched[|fetched| - 1]))
  {
    var p := Place(prev.heap, held, fetched[|fetched| - 1]);
    LastWriteAppend(fetched, prev, p.heap, p.used);
  }

  /** Appending an entry whose object was just written from the last summary,
      leaving every other object as it was, keeps the last-write clause. */
  lemma LastWriteAppend(fetched: seq<Summary>, prev: Merged, heap': Heap, r: Ref)
    requires |fetched| > 0 && LastWriteWins(fetched[..|fetched| - 1], prev)
    requires |prev.heap| <= |heap'| && r < |heap'| && ObservedFrom(heap'[r], fetched[|fetched| - 1])
    requires forall k :: 0 <= k < |heap'| && k != r ==> k < |prev.heap| && heap'[k] == prev.heap[k]
    ensures LastWriteWins(fetched, Merged(heap', prev.refs + [r]))
  {
    var n := |fetched| - 1;
    var pre := fetched[..n];
    var refs := prev.refs + [r];
    forall i | 0 <= i < |fetched| && refs[i] !in refs[i + 1..]
      ensures ObservedFrom(heap'[refs[i]], fetched[i])
    {
      if i < n {
        var q := prev.refs[i];
        assert refs[i] == q && fetched[i] == pre[i];
        assert refs[i + 1..] == prev.refs[i + 1..] + [r];
        assert q !in prev.refs[i + 1..] && q != r;
        assert ObservedFrom(prev.heap[q], pre[i]);
        assert heap'[q] == prev.heap[q];
      }
    }
  }

  lemma ExtendUntouched(h: Heap, held: seq<Ref>, fetched: seq<Summary>, prev: Merged)
    requires ValidRefs(h, held) && AllNameable(fetched) && |fetched| > 0
    requires OnePerSummary(h, held, fetched[..|fetched| - 1], prev)
    requires OthersUntouched(h, fetched[..|fetched| - 1], prev)
    ensures OthersUntouched(h, fetched, Extend(prev, held, fetched[|fetched| - 1]))
  {
    var n := |fetched| - 1;
    var p := Place(prev.heap, held, fetched[n]);
    var m := Merged(p.heap, prev.refs + [p.used]);
    assert m == Extend(prev, held, fetched[n]);
    forall k | 0 <= k < |m.heap| && k !in m.refs
      ensures k < |h| && m.heap[k] == h[k]
    {
      assert k != p.used && k !in prev.refs;
      assert k < |prev.heap| && m.heap[k] == prev.heap[k];
    }
  }

  /** Identity preservation: a container whose ID was already held comes back
      as the very same object, with its monitoring flag, stats history and
      details exactly as they were. */
  lemma MergeKeepsOwnedState(h: Heap, held: seq<Ref>, fetched: seq<Summary>, i: nat, k: nat)
    requires ValidRefs(h, held) && AllNameable(fetched)
    requires i < |fetched| && k < |held| && h[held[k]].id == fetched[i].id
    ensures var m := Merge(h, held, fetched);
      var r := m.refs[i];
      r < |h| && h[r].id == fetched[i].id && SameOwned(m.heap[r], h[r])
  {
    var m := Merge(h, held, fetched);
    assert PlacedFor(h, held, fetched[i].id, m.refs[i]);
    assert FirstHeld(h, held, fetched[i].id).Some?;
  }

  /** With the distinct IDs the runtime guarantees, every entry is its own
      object and carries its own summary's observations. */
  lemma MergeDistinctIds(h: Heap, held: seq<Ref>, fetched: seq<Summary>)
    requires ValidRefs(h, held) && AllNameable(fetched)
    requires forall i, j :: 0 <= i < j < |fetched| ==> fetched[i].id != fetched[j].id
    ensures var m := Merge(h, held, fetched);
      forall i :: 0 <= i < |fetched| ==> ObservedFrom(m.heap[m.refs[i]], fetched[i])
    ensures var m := Merge(h, held, fetched);
      forall i, j :: 0 <= i < j < |fetched| ==> m.refs[i] != m.refs[j]
  {
    var m := Merge(h, held, fetched);
    forall i, l | 0 <= i < l < |fetched|
      ensures m.refs[l] != m.refs[i]
    {
      assert m.heap[m.refs[i]].id == fetched[i].id;
      assert m.heap[m.refs[l]].id == fetched[l].id;
    }
    forall i | 0 <= i < |fetched|
      ensures m.refs[i] !in m.refs[i + 1..]
    {
      forall l | i < l < |fetched| ensures m.refs[l] != m.refs[i] { }
    }
  }
}

=== FILE: scenarios.dfy ===
/** Consequences of the refresh contract: a compose project whose every
    container backs its own service shows nothing in the containers panel;
    the one-off rule; and the two ways assignment and the standalone test
    disagree: a container can be both assigned and standalone, or neither. */
module Scenarios {
  import opened Wrappers
  import opened Seqs
  import opened Model
  import opened Registry
  import opened Services
  import opened Refresh

  /** The refresh contract specialised to a compose project with no
      services passed in: the outcome in terms of the merge and the parsed
      services. */
  lemma ComposeRefreshOutcome(st: State, cfg: Settings, fetched: seq<Summary>, lines: seq<string>,
                              m: Merged, parsed: seq<Service>)
    requires Valid(st) && cfg.inComposeProject && AllNameable(fetched)
    requires forall i :: 0 <= i < |lines| ==> HasTwoFields(lines[i])
    requires m == Merge(st.heap, st.containers, fetched) && parsed == ParseServices(lines)
    ensures var out := RefreshContainersAndServices(st, cfg, None, Ok(fetched), Ok(lines));
      && out.1.Ok? && out.0.heap == m.heap && out.0.containers == m.refs
      && out.1.value.services == Some(AssignContainers(m.heap, m.refs, parsed))
      && out.1.value.display == out.0.display
      && Selects(m.refs, out.0.display, ShownTest(m.heap, cfg, AssignContainers(m.heap, m.refs, parsed)))
  {
  }

  /** Service `k` gets container `k` when container `k` backs it and every
      container backs the service of its own position, all names distinct. */
  lemma AssignedOwnContainer(h: Heap, cs: seq<Ref>, svcs: seq<Service>, k: nat)
    requires ValidRefs(h, cs) && |cs| == |svcs| && k < |svcs|
    requires forall j :: 0 <= j < |cs| ==> Backs(h[cs[j]], svcs[j].name)
    requires forall i, j :: 0 <= i < j < |svcs| ==> svcs[i].name != svcs[j].name
    ensures AssignContainers(h, cs, svcs)[k] == svcs[k].(container := Some(cs[k]))
  {
    var r := AssignContainers(h, cs, svcs);
    assert r[k].container.Some?;
    var q: nat :| FirstBackingAt(h, cs, svcs[k].name, q) && cs[q] == r[k].container.value;
    assert Backs(h[cs[q]], svcs[q].name);
    assert svcs[q].name == svcs[k].name;
  }

  /** When container `k` is the only one labelled with service `k`'s name,
      the assignment gives each service its own container, and with
      non-empty names no container is left standalone. */
  lemma OwnContainerAssigned(h: Heap, cs: seq<Ref>, svcs: seq<Service>)
    requires ValidRefs(h, cs) && |cs| == |svcs|
    requires forall k :: 0 <= k < |cs| ==> Backs(h[cs[k]], svcs[k].name)
    requires forall i, j :: 0 <= i < j < |svcs| ==> svcs[i].name != svcs[j].name
    ensures var r := AssignContainers(h, cs, svcs);
      forall k :: 0 <= k < |r| ==> r[k] == svcs[k].(container := Some(cs[k]))
    ensures forall k :: 0 <= k < |cs| && svcs[k].name != "" ==>
      !IsStandalone(h[cs[k]], AssignContainers(h, cs, svcs))
  {
    var r := AssignContainers(h, cs, svcs);
    forall k | 0 <= k < |r| ensures r[k] == svcs[k].(container := Some(cs[k]))
    {
      AssignedOwnContainer(h, cs, svcs, k);
    }
    forall k | 0 <= k < |cs| && svcs[k].name != "" ensures !IsStandalone(h[cs[k]], r)
    {
      assert r[k].name == h[cs[k]].serviceName;
    }
  }

  /** Merging a listing with distinct IDs whose `k`-th entry carries service
      `k`'s label and is no one-off: the `k`-th merged container backs
      service `k`. */
  lemma MergedContainersBack(h: Heap, held: seq<Ref>, fetched: seq<Summary>, svcs: seq<Service>)
    requires ValidRefs(h, held) && AllNameable(fetched) && |svcs| == |fetched|
    requires forall i, j :: 0 <= i < j < |fetched| ==> fetched[i].id != fetched[j].id
    requires forall k :: 0 <= k < |fetched| ==>
      Label(fetched[k], ServiceLabel) == svcs[k].name && Label(fetched[k], OneOffLabel) != OneOffMarker
    ensures var m := Merge(h, held, fetched);
      forall k :: 0 <= k < |m.refs| ==> Backs(m.heap[m.refs[k]], svcs[k].name)
  {
    var m := Merge(h, held, fetched);
    MergeDistinctIds(h, held, fetched);
    forall k | 0 <= k < |m.refs| ensures Backs(m.heap[m.refs[k]], svcs[k].name)
    {
      ObservedLabels(m.heap[m.refs[k]], fetched[k]);
    }
  }

  /** When every container is absorbed into a service and not all containers
      are shown, the display list is empty. */
  lemma NothingStandaloneShown(h: Heap, cs: seq<Ref>, cfg: Settings, services: seq<Service>, display: seq<Ref>)
    requires ValidRefs(h, cs) && !cfg.showAllContainers
    requires forall k :: 0 <= k < |cs| ==> !IsStandalone(h[cs[k]], services)
    requires Selects(cs, display, ShownTest(h, cfg, services))
    ensures display == []
  {
    forall x ensures multiset(display)[x] == 0 {
      if x in cs {
        var k :| 0 <= k < |cs| && cs[k] == x;
        assert !ShownTest(h, cfg, services)(x);
      }
    }
    assert multiset(display) == multiset{};
  }

  /** A compose project whose listing holds exactly one container per
      service, in service order, each carrying its service's label and none
      a one-off: every service is given its own container. */
  lemma EachServiceGetsItsContainer(st: State, cfg: Settings, fetched: seq<Summary>, svcs: seq<Service>)
    requires Valid(st) && cfg.inComposeProject && AllNameable(fetched)
    requires forall i, j :: 0 <= i < j < |fetched| ==> fetched[i].id != fetched[j].id
    requires |svcs| == |fetched|
    requires forall k :: 0 <= k < |svcs| ==>
      ' ' !in svcs[k].name && ' ' !in svcs[k].id && svcs[k].container.None?
    requires forall i, j :: 0 <= i < j < |svcs| ==> svcs[i].name != svcs[j].name
    requires forall k :: 0 <= k < |fetched| ==>
      Label(fetched[k], ServiceLabel) == svcs[k].name && Label(fetched[k], OneOffLabel) != OneOffMarker
    ensures forall i :: 0 <= i < |svcs| ==> HasTwoFields(FormatServices(svcs)[i])
    ensures var out := RefreshContainersAndServices(st, cfg, None, Ok(fetched), Ok(FormatServices(svcs)));
      && out.1.Ok? && out.1.value.services.Some?
      && var absorbed := out.1.value.services.value;
      && |absorbed| == |svcs| == |out.0.containers|
      && (forall k :: 0 <= k < |svcs| ==> absorbed[k] == svcs[k].(container := Some(out.0.containers[k])))
      && forall k :: 0 <= k < |svcs| ==> Backs(out.0.heap[out.0.containers[k]], svcs[k].name)
  {
    ParseFormatted(svcs);
    var m := Merge(st.heap, st.containers, fetched);
    MergedContainersBack(st.heap, st.containers, fetched, svcs);
    ComposeRefreshOutcome(st, cfg, fetched, FormatServices(svcs), m, svcs);
    OwnContainerAssigned(m.heap, m.refs, svcs);
  }

  /** In the same project, with not all containers shown, every container is
      absorbed into its service and the display list is empty. */
  lemma AbsorbedContainersAreNotShown(st: State, cfg: Settings, fetched: seq<Summary>, svcs: seq<Service>)
    requires Valid(st) && cfg.inComposeProject && !cfg.showAllContainers && AllNameable(fetched)
    requires forall i, j :: 0 <= i < j < |fetched| ==> fetched[i].id != fetched[j].id
    requires |svcs| == |fetched|
    requires forall k :: 0 <= k < |svcs| ==>
      ' ' !in svcs[k].name && ' ' !in svcs[k].id && svcs[k].container.None? && svcs[k].name != ""
    requires forall i, j :: 0 <= i < j < |svcs| ==> svcs[i].name != svcs[j].name
    requires forall k :: 0 <= k < |fetched| ==>
      Label(fetched[k], ServiceLabel) == svcs[k].name && Label(fetched[k], OneOffLabel) != OneOffMarker
    ensures forall i :: 0 <= i < |svcs| ==> HasTwoFields(FormatServices(svcs)[i])
    ensures RefreshContainersAndServices(st, cfg, None, Ok(fetched), Ok(FormatServices(svcs))).0.display == []
  {
    EachServiceGetsItsContainer(st, cfg, fetched, svcs);
    var out := RefreshContainersAndServices(st, cfg, None, Ok(fetched), Ok(FormatServices(svcs)));
    var h, cs, services := out.0.heap, out.0.containers, Elements(out.1.value.services);
    forall k | 0 <= k < |cs| ensures !IsStandalone(h[cs[k]], services)
    {
      assert services[k].name == svcs[k].name == h[cs[k]].serviceName;
    }
    NothingStandaloneShown(h, cs, cfg, services, out.0.display);
  }

  /** A one-off container is always standalone and is never the container
      of any service. */
  lemma OneOffIsStandaloneAndUnassigned(h: Heap, cs: seq<Ref>, services: seq<Service>, i: nat)
    requires ValidRefs(h, cs) && i < |cs| && h[cs[i]].oneOff
    ensures cs[i] in StandaloneContainers(h, cs, services)
    ensures forall j :: 0 <= j < |services| ==> AssignContainers(h, cs, services)[j].container != Some(cs[i])
  {
    AssignedContainersBack(h, cs, services);
  }

  /** Assignment does not require a non-empty service name, but the
      standalone test does: the container a service named "" is given is
      always standalone, and such a service is given one whenever some
      container that is not a one-off has no service label. */
  lemma EmptyNameAssignedIsStandalone(h: Heap, cs: seq<Ref>, services: seq<Service>, s: nat)
    requires ValidRefs(h, cs) && s < |services| && services[s].name == ""
    ensures var r := AssignContainers(h, cs, services);
      r[s].container.Some? ==> r[s].container.value in StandaloneContainers(h, cs, services)
    ensures (exists k :: 0 <= k < |cs| && Backs(h[cs[k]], "")) ==>
      AssignContainers(h, cs, services)[s].container.Some?
  {
    var r := AssignContainers(h, cs, services);
    if r[s].container.Some? {
      var q: nat :| FirstBackingAt(h, cs, services[s].name, q) && cs[q] == r[s].container.value;
      assert IsStandalone(h[cs[q]], services);
    }
  }

  /** Only the first container backing a service is assigned to it, yet the
      standalone test hides every container that is not a one-off and whose
      non-empty label names some service: a later backing container is
      neither assigned nor standalone, so it is shown nowhere unless all
      containers are shown. */
  lemma SecondBackingIsNeither(h: Heap, cs: seq<Ref>, services: seq<Service>, i: nat, j: nat)
    requires ValidRefs(h, cs) && i < j < |cs|
    requires forall k :: 0 <= k < j ==> cs[k] != cs[j]
    requires h[cs[j]].serviceName != "" && !h[cs[j]].oneOff
    requires Backs(h[cs[i]], h[cs[j]].serviceName)
    requires exists t :: 0 <= t < |services| && services[t].name == h[cs[j]].serviceName
    ensures cs[j] !in StandaloneContainers(h, cs, services)
    ensures forall t :: 0 <= t < |services| ==> AssignContainers(h, cs, services)[t].container != Some(cs[j])
  {
    assert !IsStandalone(h[cs[j]], services);
    var r := AssignContainers(h, cs, services);
    forall t | 0 <= t < |services| ensures r[t].container != Some(cs[j])
    {
      if r[t].container.Some? {
        var q: nat :| FirstBackingAt(h, cs, services[t].name, q) && cs[q] == r[t].container.value;
        if services[t].name == h[cs[j]].serviceName {
          assert q <= i;
        } else {
          assert !Backs(h[cs[j]], services[t].name);
        }
      }
    }
  }
}

=== FILE: seqs.dfy ===
/** Order-preserving selection from a sequence: the shape shared by every
    filtering step of the reconciliation core. */
module Seqs {

  /** `a` can be obtained from `b` by deleting elements, keeping order. */
  predicate IsSubseq<T(==)>(a: seq<T>, b: seq<T>)
    decreases |b|
  {
    if |a| == 0 then true
    else if |b| == 0 then false
    else (a[0] == b[0] && IsSubseq(a[1..], b[1..])) || IsSubseq(a, b[1..])
  }

  /** `r` is what remains of `s` once every element failing `keep` is deleted:
      order is preserved and each kept value occurs exactly as often as in `s`. */
  ghost predicate KeepsExactly<T(!new)>(s: seq<T>, r: seq<T>, keep: T -> bool)
  {
    IsSubseq(r, s) && Selects(s, r, keep)
  }

  /** Each value satisfying `keep` occurs in `r` as often as in `s`; no other
      value occurs in `r`. Order is not constrained. */
  ghost predicate Selects<T(!new)>(s: seq<T>, r: seq<T>, keep: T -> bool)
  {
    forall x :: multiset(r)[x] == (if keep(x) then multiset(s)[x] else 0)
  }

  /** When every element passes, the whole sequence is selected. */
  lemma SelectsEverything<T(!new)>(s: seq<T>, keep: T -> bool)
    requires forall i :: 0 <= i < |s| ==> keep(s[i])
    ensures Selects(s, s, keep)
  {
    forall x ensures multiset(s)[x] == (if keep(x) then multiset(s)[x] else 0) {
      if !keep(x) { assert x !in s; }
    }
  }

  /** Tests that agree on every value select the same. */
  lemma SelectsSameTest<T(!new)>(s: seq<T>, r: seq<T>, k1: T -> bool, k2: T -> bool)
    requires Selects(s, r, k1)
    requires forall x :: k1(x) == k2(x)
    ensures Selects(s, r, k2)
  {
  }

  /** Selecting by one test and then by another selects by their conjunction. */
  lemma SelectsThenSelects<T(!new)>(a: seq<T>, b: seq<T>, c: seq<T>, k1: T -> bool, k2: T -> bool, both: T -> bool)
    requires Selects(a, b, k1) && Selects(b, c, k2)
    requires forall x :: both(x) == (k1(x) && k2(x))
    ensures Selects(a, c, both)
  {
  }

  lemma {:induction false} SubseqReflexive<T>(s: seq<T>)
    ensures IsSubseq(s, s)
    decreases |s|
  {
    if |s| > 0 { SubseqReflexive(s[1..]); }
  }

  lemma {:induction false} SubseqTransitive<T>(a: seq<T>, b: seq<T>, c: seq<T>)
    requires IsSubseq(a, b) && IsSubseq(b, c)
    ensures IsSubseq(a, c)
    decreases |c|
  {
    if |a| == 0 {
    } else if |b| > 0 && |c| > 0 {
      if b[0] == c[0] && IsSubseq(b[1..], c[1..]) {
        if a[0] == b[0] && IsSubseq(a[1..], b[1..]) {
          SubseqTransitive(a[1..], b[1..], c[1..]);
        } else {
          SubseqTransitive(a, b[1..], c[1..]);
        }
      } else {
        SubseqTransitive(a, b, c[1..]);
      }
    }
  }

  /** The elements of `s` satisfying `keep`, in order (Go's append-in-a-loop
      filter and `lo.Filter`). */
  function Filter<T>(s: seq<T>, keep: T -> bool): (r: seq<T>)
    ensures |r| <= |s|
    ensures forall i :: 0 <= i < |r| ==> keep(r[i])
    ensures (forall i :: 0 <= i < |s| ==> keep(s[i])) <==> r == s
    decreases |s|
  {
    if |s| == 0 then []
    else
      var rest := Filter(s[1..], keep);
      if keep(s[0]) then
        assert ([s[0]] + rest)[1..] == rest;
        assert s == [s[0]] + s[1..];
        [s[0]] + rest
      else
        assert |rest| < |s|;
        rest
  }

  /** What `Filter` returns is exactly the order-preserving selection of the
      elements satisfying `keep`. */
  lemma {:induction false} FilterKeepsExactly<T(!new)>(s: seq<T>, keep: T -> bool)
    ensures KeepsExactly(s, Filter(s, keep), keep)
    decreases |s|
  {
    if |s| > 0 {
      var rest := Filter(s[1..], keep);
      FilterKeepsExactly(s[1..], keep);
      assert s == [s[0]] + s[1..];
      assert multiset(s) == multiset{s[0]} + multiset(s[1..]);
      if keep(s[0]) {
        assert ([s[0]] + rest)[1..] == rest;
        assert multiset([s[0]] + rest) == multiset{s[0]} + multiset(rest);
      } else {
        if |rest| > 0 { assert IsSubseq(rest, s[1..]); }
      }
    }
  }

  /** Filtering twice with the same test changes nothing the second time. */
  lemma FilterIdempotent<T(!new)>(s: seq<T>, keep: T -> bool)
    ensures Filter(Filter(s, keep), keep) == Filter(s, keep)
  {
  }
}

=== FILE: services.dfy ===
/** The service side of a refresh: parsing the compose tool's `name id`
    lines (`GetServices`, pkg/commands/docker.go:339-368), assigning a
    container to each service (pkg/commands/docker.go:210-221) and deriving
    the standalone containers (pkg/commands/docker.go:266-280). */
module Services {
  import opened Wrappers
  import opened GoStrings
  import opened Seqs
  import opened Model

  /** A line the parser can read: `strings.Split` gives it a second field,
      which holds exactly when the line contains a space. */
  predicate HasTwoFields(line: string)
  {
    ' ' in line
  }

  /** `name` and `id` are the first two space-separated fields of `line`. */
  ghost predicate FirstTwoFields(line: string, name: string, id: string)
  {
    && ' ' !in name && ' ' !in id
    && |name| + 1 + |id| <= |line|
    && line[..|name| + 1 + |id|] == name + " " + id
    && (|name| + 1 + |id| < |line| ==> line[|name| + 1 + |id|] == ' ')
  }

  /** The first two pieces of a split sit at the front of the line as
      `first sep second`, followed by `sep` or by the end of the line. */
  lemma {:induction false} SplitFront(line: string)
    requires HasTwoFields(line)
    ensures var parts := Split(line, ' ');
      |parts| >= 2 && FirstTwoFields(line, parts[0], parts[1])
  {
    var parts := Split(line, ' ');
    SplitCountsSeparators(line, ' ');
    var tail := Join(parts[1..], ' ');
    assert line == parts[0] + " " + tail;
    if |parts| == 2 {
      assert tail == parts[1];
      assert line == parts[0] + " " + parts[1];
    } else {
      assert tail == parts[1] + " " + Join(parts[2..], ' ');
      assert line == (parts[0] + " " + parts[1]) + " " + Join(parts[2..], ' ');
    }
  }

  /** A line of exactly two fields splits into those fields. */
  lemma SplitTwoFields(name: string, id: string)
    requires ' ' !in name && ' ' !in id
    ensures Split(name + " " + id, ' ') == [name, id]
  {
    assert Join([name, id], ' ') == name + " " + id;
    SplitJoin([name, id], ' ');
  }

  /** Turns the compose tool's output lines into services, one per line in
      line order, with no container assigned yet. */
  function ParseServices(lines: seq<string>): (r: seq<Service>)
    requires forall i :: 0 <= i < |lines| ==> HasTwoFields(lines[i])
    ensures |r| == |lines|
    ensures forall i :: 0 <= i < |lines| ==>
      r[i].container.None? && FirstTwoFields(lines[i], r[i].name, r[i].id)
  {
    assert forall i :: 0 <= i < |lines| ==>
      var parts := Split(lines[i], ' '); |parts| >= 2 && FirstTwoFields(lines[i], parts[0], parts[1])
    by {
      forall i | 0 <= i < |lines| { SplitFront(lines[i]); }
    }
    seq(|lines|, i requires 0 <= i < |lines| =>
      var parts := Split(lines[i], ' ');
      Service(parts[0], parts[1], None))
  }

  /** The first two fields of a `name id` line are `name` and `id`. */
  lemma FirstTwoFieldsOfFormatted(name: string, id: string, n: string, i: string)
    requires ' ' !in name && ' ' !in id
    requires FirstTwoFields(name + " " + id, n, i)
    ensures n == name && i == id
  {
    var line := name + " " + id;
    assert line[..|n| + 1 + |i|][|n|] == ' ';
    assert forall k :: 0 <= k < |name| ==> line[k] == name[k];
    assert line[|name|] == ' ';
    assert n == line[..|n|] == name;
    assert i == line[|n| + 1..|n| + 1 + |i|] == id;
  }

  /** The line the compose tool prints for a service: its name and ID,
      separated by one space. */
  function FormatService(svc: Service): string
  {
    svc.name + " " + svc.id
  }

  /** The compose tool's output for a list of services, one line each. */
  function FormatServices(svcs: seq<Service>): seq<string>
  {
    seq(|svcs|, k requires 0 <= k < |svcs| => FormatService(svcs[k]))
  }

  /** Round trip: services whose names and IDs hold no space, printed one per
      line, parse back to exactly those services. */
  lemma ParseFormatted(svcs: seq<Service>)
    requires forall k :: 0 <= k < |svcs| ==>
      ' ' !in svcs[k].name && ' ' !in svcs[k].id && svcs[k].container.None?
    ensures forall i :: 0 <= i < |svcs| ==> HasTwoFields(FormatServices(svcs)[i])
    ensures ParseServices(FormatServices(svcs)) == svcs
  {
    var lines := FormatServices(svcs);
    forall i | 0 <= i < |lines| ensures HasTwoFields(lines[i]) {
      assert lines[i][|svcs[i].name|] == ' ';
    }
    var r := ParseServices(lines);
    forall i | 0 <= i < |svcs| ensures r[i] == svcs[i] {
      SplitTwoFields(svcs[i].name, svcs[i].id);
    }
  }

  /** `GetServices`: outside a compose project there are no services (Go's
      nil slice, `None` here) and the compose tool is not consulted; a failing
      compose tool is an error; otherwise each output line becomes a service. */
  function GetServices(inComposeProject: bool, output: Result<seq<string>>): (r: Result<Option<seq<Service>>>)
    requires inComposeProject && output.Ok? ==>
      forall i :: 0 <= i < |output.value| ==> HasTwoFields(output.value[i])
    ensures !inComposeProject ==> r == Ok(None)
    ensures inComposeProject ==> (r.Err? <==> output.Err?)
    ensures inComposeProject && output.Ok? ==> r == Ok(Some(ParseServices(output.value)))
    ensures r.Ok? && r.value.Some? ==> (
      && inComposeProject && output.Ok?
      && |r.value.value| == |output.value|
      && forall i :: 0 <= i < |output.value| ==>
           var svc := r.value.value[i];
           svc.container.None? && FirstTwoFields(output.value[i], svc.name, svc.id))
  {
    if !inComposeProject then Ok(None)
    else match output
      case Err(e) => Err(e)
      case Ok(lines) => Ok(Some(ParseServices(lines)))
  }

  /** `c` can back the service called `name`: it is not a one-off and carries
      that service label. Nothing requires `name` to be non-empty. */
  predicate Backs(c: Container, name: string)
  {
    !c.oneOff && c.serviceName == name
  }

  /** Position of the first container in `cs` that backs `name`. */
  function FirstBacking(h: Heap, cs: seq<Ref>, name: string): (k: Option<nat>)
    requires ValidRefs(h, cs)
    ensures k.Some? ==> k.value < |cs| && Backs(h[cs[k.value]], name)
    ensures k.Some? ==> forall j :: 0 <= j < k.value ==> !Backs(h[cs[j]], name)
    ensures k.None? <==> forall j :: 0 <= j < |cs| ==> !Backs(h[cs[j]], name)
    decreases |cs|
  {
    if |cs| == 0 then None
    else if Backs(h[cs[0]], name) then Some(0)
    else match FirstBacking(h, cs[1..], name)
      case Some(k) => Some(k + 1)
      case None => None
  }

  /** `cs[k]` is the first container of `cs` backing `name`. */
  ghost predicate FirstBackingAt(h: Heap, cs: seq<Ref>, name: string, k: nat)
    requires ValidRefs(h, cs)
  {
    k < |cs| && Backs(h[cs[k]], name) && forall j :: 0 <= j < k ==> !Backs(h[cs[j]], name)
  }

  /** `assignContainersToServices`: every service keeps its name and ID and
      points at the first container, in list order, that backs it, or at no
      container when none does. Containers are not changed. */
  function AssignContainers(h: Heap, cs: seq<Ref>, services: seq<Service>): (r: seq<Service>)
    requires ValidRefs(h, cs)
    ensures |r| == |services|
    ensures forall i :: 0 <= i < |r| ==> r[i].name == services[i].name && r[i].id == services[i].id
    ensures forall i :: 0 <= i < |r| ==>
      (r[i].container.None? <==> forall k :: 0 <= k < |cs| ==> !Backs(h[cs[k]], services[i].name))
    ensures forall i :: 0 <= i < |r| && r[i].container.Some? ==>
      exists k: nat :: FirstBackingAt(h, cs, services[i].name, k) && cs[k] == r[i].container.value
  {
    seq(|services|, i requires 0 <= i < |services| =>
      var svc := services[i];
      match FirstBacking(h, cs, svc.name)
      case Some(k) => svc.(container := Some(cs[k]))
      case None => svc.(container := None))
  }

  /** The invariant services keep: an assigned container is one of the list,
      not a one-off, and labelled with the service's name. */
  lemma AssignedContainersBack(h: Heap, cs: seq<Ref>, services: seq<Service>)
    requires ValidRefs(h, cs)
    ensures var r := AssignContainers(h, cs, services);
      forall i :: 0 <= i < |r| && r[i].container.Some? ==>
        r[i].container.value in cs && Backs(h[r[i].container.value], r[i].name)
  {
  }

  /** `c` is kept as standalone: it is a one-off, has no service label, or no
      service of the list carries its label as name. */
  predicate IsStandalone(c: Container, services: seq<Service>)
  {
    c.oneOff || c.serviceName == "" || forall j :: 0 <= j < |services| ==> services[j].name != c.serviceName
  }

  function StandaloneTest(h: Heap, services: seq<Service>): Ref -> bool
  {
    (r: Ref) => r < |h| && IsStandalone(h[r], services)
  }

  /** `obtainStandaloneContainers`: the containers not absorbed into a
      service row, in their original order. */
  function StandaloneContainers(h: Heap, cs: seq<Ref>, services: seq<Service>): (r: seq<Ref>)
    requires ValidRefs(h, cs)
    ensures KeepsExactly(cs, r, StandaloneTest(h, services))
    ensures ValidRefs(h, r)
    ensures forall i :: 0 <= i < |r| ==> IsStandalone(h[r[i]], services)
    ensures forall i :: 0 <= i < |cs| ==> (cs[i] in r <==> IsStandalone(h[cs[i]], services))
  {
    var r := Filter(cs, StandaloneTest(h, services));
    FilterKeepsExactly(cs, StandaloneTest(h, services));
    assert forall x :: x in r <==> x in multiset(r);
    r
  }

  /** One-off containers and containers without a service label are always
      standalone, and with no services every container is. */
  lemma StandaloneAlwaysKeeps(h: Heap, cs: seq<Ref>, services: seq<Service>)
    requires ValidRefs(h, cs)
    ensures forall i :: 0 <= i < |cs| && (h[cs[i]].oneOff || h[cs[i]].serviceName == "") ==>
      cs[i] in StandaloneContainers(h, cs, services)
    ensures services == [] ==> StandaloneContainers(h, cs, services) == cs
  {
  }

  /** A container is hidden (not standalone) only when a service carries its
      label, and then that service is backed: the assignment gives it some
      container, though not necessarily this one. */
  lemma HiddenContainersHaveBackedService(h: Heap, cs: seq<Ref>, services: seq<Service>, i: nat)
    requires ValidRefs(h, cs) && i < |cs|
    requires cs[i] !in StandaloneContainers(h, cs, services)
    ensures exists j :: (0 <= j < |services| && services[j].name == h[cs[i]].serviceName &&
      AssignContainers(h, cs, services)[j].container.Some?)
  {
    var c := h[cs[i]];
    var j :| 0 <= j < |services| && services[j].name == c.serviceName;
    assert Backs(c, services[j].name);
  }
}

=== FILE: strings.dfy ===
/** The parts of Go's `strings` package (and of Go's string ordering) that the
    reconciliation core relies on, over Dafny strings. */
module GoStrings {

  /** Concatenates `parts` with `sep` between neighbours; the inverse of `Split`. */
  function Join(parts: seq<string>, sep: char): string
    requires |parts| >= 1
    decreases |parts|
  {
    if |parts| == 1 then parts[0] else parts[0] + [sep] + Join(parts[1..], sep)
  }

  /** `strings.Split(s, string(sep))`: the maximal `sep`-free pieces of `s`, in
      order. There is always at least one piece (the empty string gives `[""]`). */
  function Split(s: string, sep: char): (parts: seq<string>)
    ensures |parts| >= 1
    ensures forall i :: 0 <= i < |parts| ==> sep !in parts[i]
    ensures Join(parts, sep) == s
    decreases |s|
  {
    if |s| == 0 then [""]
    else
      var rest := Split(s[1..], sep);
      if s[0] == sep then [""] + rest
      else [[s[0]] + rest[0]] + rest[1..]
  }

  /** A string splits into a single piece exactly when it has no separator. */
  lemma {:induction false} SplitCountsSeparators(s: string, sep: char)
    ensures |Split(s, sep)| == 1 <==> sep !in s
    decreases |s|
  {
    if |s| > 0 {
      SplitCountsSeparators(s[1..], sep);
      assert s == [s[0]] + s[1..];
    }
  }

  /** Splitting a join of `sep`-free pieces gives the pieces back. */
  lemma {:induction false} SplitJoin(parts: seq<string>, sep: char)
    requires |parts| >= 1
    requires forall i :: 0 <= i < |parts| ==> sep !in parts[i]
    ensures Split(Join(parts, sep), sep) == parts
    decreases |parts|, |parts[0]|
  {
    var s := Join(parts, sep);
    if |parts[0]| == 0 {
      if |parts| == 1 {
        assert s == "";
      } else {
        assert s == [sep] + Join(parts[1..], sep);
        assert s[1..] == Join(parts[1..], sep);
        SplitJoin(parts[1..], sep);
        assert parts == [""] + parts[1..];
      }
    } else {
      var c := parts[0][0];
      var shorter := [parts[0][1..]] + parts[1..];
      assert shorter[1..] == parts[1..];
      assert c != sep;
      if |parts| == 1 {
        assert s == parts[0];
        assert s[1..] == Join(shorter, sep);
      } else {
        assert s == parts[0] + [sep] + Join(parts[1..], sep);
        assert s[1..] == parts[0][1..] + [sep] + Join(parts[1..], sep);
        assert s[1..] == Join(shorter, sep);
      }
      SplitJoin(shorter, sep);
      assert [c] + shorter[0] == parts[0];
      assert [[c] + shorter[0]] + shorter[1..] == parts;
    }
  }

  /** `r` is `s` with every leading `c` removed: a suffix of `s` preceded only
      by copies of `c`, and not itself starting with `c`. */
  ghost predicate IsLeftTrimmed(s: string, c: char, r: string)
  {
    && |r| <= |s|
    && r == s[|s| - |r|..]
    && (forall i :: 0 <= i < |s| - |r| ==> s[i] == c)
    && (|r| > 0 ==> r[0] != c)
  }

  /** `strings.TrimLeft(s, string(c))`: strips ALL leading occurrences of `c`. */
  function TrimLeft(s: string, c: char): (r: string)
    ensures IsLeftTrimmed(s, c, r)
    decreases |s|
  {
    if |s| > 0 && s[0] == c then TrimLeft(s[1..], c) else s
  }

  /** The trimmed form is unique: whatever satisfies the characterisation is
      what `TrimLeft` returns. */
  lemma {:induction false} LeftTrimmedUnique(s: string, c: char, r: string)
    requires IsLeftTrimmed(s, c, r)
    ensures r == TrimLeft(s, c)
    decreases |s|
  {
    if |s| > 0 && s[0] == c {
      assert |r| < |s|;
      assert s[1..][|s[1..]| - |r|..] == s[|s| - |r|..];
      LeftTrimmedUnique(s[1..], c, r);
    }
  }

  /** Trimming is idempotent, and one more leading `c` makes no difference. */
  lemma TrimLeftStripsAll(s: string, c: char)
    ensures TrimLeft(TrimLeft(s, c), c) == TrimLeft(s, c)
    ensures TrimLeft([c] + s, c) == TrimLeft(s, c)
  {
    assert ([c] + s)[1..] == s;
  }

  /** `needle` occurs in `hay` starting at position `k`. */
  predicate OccursAt(hay: string, needle: string, k: nat)
  {
    k + |needle| <= |hay| && hay[k..k + |needle|] == needle
  }

  /** `strings.Index`: the first position where `needle` occurs, or -1. */
  function Index(hay: string, needle: string): (r: int)
    ensures -1 <= r <= |hay|
    ensures r >= 0 ==> OccursAt(hay, needle, r)
    ensures r >= 0 ==> forall k: nat :: k < r ==> !OccursAt(hay, needle, k)
    ensures r == -1 <==> forall k: nat :: k <= |hay| ==> !OccursAt(hay, needle, k)
    decreases |hay|
  {
    if |needle| > |hay| then -1
    else if needle <= hay then
      assert OccursAt(hay, needle, 0);
      0
    else
      assert !OccursAt(hay, needle, 0);
      var t := Index(hay[1..], needle);
      OccursShift(hay, needle);
      if t < 0 then -1 else t + 1
  }

  /** Dropping the first character of `hay` shifts every occurrence after
      position 0 one place to the left. */
  lemma OccursShift(hay: string, needle: string)
    requires |hay| > 0
    ensures forall k: nat :: 1 <= k <= |hay| ==> (OccursAt(hay, needle, k) <==> OccursAt(hay[1..], needle, k - 1))
  {
    forall k: nat | 1 <= k <= |hay|
      ensures OccursAt(hay, needle, k) <==> OccursAt(hay[1..], needle, k - 1)
    {
      if k + |needle| <= |hay| {
        assert hay[1..][k - 1..k - 1 + |needle|] == hay[k..k + |needle|];
      }
    }
  }

  /** `strings.Contains`: `needle` occurs somewhere in `hay`. */
  predicate Contains(hay: string, needle: string)
  {
    Index(hay, needle) >= 0
  }

  /** Contains holds exactly when some position of `hay` starts an occurrence;
      in particular the empty string is contained in every string. */
  lemma ContainsIffOccurs(hay: string, needle: string)
    ensures Contains(hay, needle) <==> exists k: nat :: k <= |hay| && OccursAt(hay, needle, k)
    ensures Contains(hay, "")
  {
    assert OccursAt(hay, "", 0);
  }

  /** Go's `<` on strings: lexicographic by code point (for valid UTF-8 this is
      the same as Go's byte-wise comparison). Dafny's own `<` on sequences
      means "proper prefix", so it cannot be used here. */
  predicate Less(a: string, b: string)
    decreases |a|
  {
    if |a| == 0 then |b| > 0
    else if |b| == 0 then false
    else if a[0] != b[0] then a[0] < b[0]
    else Less(a[1..], b[1..])
  }

  /** The textbook definition: after the longest common prefix, either `a`
      ends while `b` goes on, or `a` has the smaller character. */
  ghost predicate LexBelow(a: string, b: string)
  {
    exists k: nat :: k <= |a| && k <= |b| && a[..k] == b[..k] &&
      ((k == |a| && k < |b|) || (k < |a| && k < |b| && a[k] < b[k]))
  }

  lemma {:induction false} LessIsLexicographic(a: string, b: string)
    ensures Less(a, b) <==> LexBelow(a, b)
    decreases |a|
  {
    forall k: nat | 0 < k <= |a| && k <= |b| && a[..k] == b[..k]
      ensures a[0] == b[0]
    {
      assert a[..k][0] == a[0] && b[..k][0] == b[0];
    }
    if |a| == 0 {
      if |b| > 0 { assert a[..0] == b[..0]; }
    } else if |b| == 0 {
    } else if a[0] != b[0] {
      if a[0] < b[0] { assert a[..0] == b[..0]; }
      if LexBelow(a, b) {
        var k: nat :| k <= |a| && k <= |b| && a[..k] == b[..k] &&
          ((k == |a| && k < |b|) || (k < |a| && k < |b| && a[k] < b[k]));
      }
    } else {
      LessIsLexicographic(a[1..], b[1..]);
      if LexBelow(a[1..], b[1..]) {
        var k: nat :| k <= |a[1..]| && k <= |b[1..]| && a[1..][..k] == b[1..][..k] &&
          ((k == |a[1..]| && k < |b[1..]|) || (k < |a[1..]| && k < |b[1..]| && a[1..][k] < b[1..][k]));
        assert a[..k + 1] == [a[0]] + a[1..][..k];
        assert b[..k + 1] == [b[0]] + b[1..][..k];
      }
      if LexBelow(a, b) {
        var k: nat :| k <= |a| && k <= |b| && a[..k] == b[..k] &&
          ((k == |a| && k < |b|) || (k < |a| && k < |b| && a[k] < b[k]));
        assert a[1..][..k - 1] == a[..k][1..];
        assert b[1..][..k - 1] == b[..k][1..];
      }
    }
  }

  lemma {:induction false} LessIrreflexive(a: string)
    ensures !Less(a, a)
    decreases |a|
  {
    if |a| > 0 { LessIrreflexive(a[1..]); }
  }

  lemma {:induction false} LessTransitive(a: string, b: string, c: string)
    requires Less(a, b) && Less(b, c)
    ensures Less(a, c)
    decreases |a|
  {
    if |a| > 0 && a[0] == b[0] && b[0] == c[0] {
      LessTransitive(a[1..], b[1..], c[1..]);
    }
  }

  /** Any two different strings are ordered one way or the other, never both. */
  lemma {:induction false} LessTrichotomous(a: string, b: string)
    ensures a == b || Less(a, b) || Less(b, a)
    ensures !(Less(a, b) && Less(b, a))
    decreases |a|
  {
    if |a| > 0 && |b| > 0 && a[0] == b[0] {
      LessTrichotomous(a[1..], b[1..]);
      if a[1..] == b[1..] {
        assert a == [a[0]] + a[1..];
        assert b == [b[0]] + b[1..];
      }
    }
  }
}

=== FILE: wrappers.dfy ===
/** Optional values and error returns, standing in for Go's nil pointers and
    `(value, error)` pairs. */
module Wrappers {

  /** A nil-able reference: `None` is Go's `nil`. */
  datatype Option<+T> = None | Some(value: T)

  /** A Go `(value, error)` pair where exactly one side is meaningful. */
  datatype Result<+T> = Ok(value: T) | Err(error: string)
}
